=== FILE: README.md ===
# WeedBot comic strips, modelled in Dafny

WeedBot sits in a euphoria.io chat room. It logs every message into an
SQLite table and answers the command `!comic`, sent as a reply to a
message, with a link to a comic strip of the conversation leading up to
that message.

`ComicGenerator.make_comic` draws the strip in five steps:

1. It picks a window of recent messages by scanning backwards.
2. It groups the window into panels of at most two speakers.
3. It word-wraps each text greedily against a font measure.
4. It gives each speaker a shuffled sprite.
5. It lays out every panel on a 450×300 grid: the texts at the top, the sprites bottom-aligned, and the panels stacked.

The model follows these steps as pure functions over sequences. The font
measure (`draw.textsize`), the shuffled path lists, the iteration order
of the speaker set and the sprite image sizes are all parameters.

The bot side is modelled as a small state machine:

- configuration resolution (`WeedBot.__init__`);
- the error counter;
- packet stamping with `str(msg_id)`;
- logging of send-events and pruning of old rows;
- assembly of the comic candidates.

The database queries become lookup functions. Drawing and uploading the
comic becomes a function from candidates to either a link or the error
`make_comic` raises. `Bot.DrawAndUpload` builds such a function from
`Comic.MakeComic` and an upload parameter.

Modules, one per file:

| module | file | models |
|---|---|---|
| `Wrappers` | wrappers.dfy | `Option` and `Result` |
| `Chat` | chat.dfy | a logged message; the set of senders of a list of messages |
| `Text` | text.dfy | `str.split()` and `" ".join` |
| `Layout` | layout.dfy | `_wrap` and `_render_text` |
| `Selection` | selection.dfy | the window-selection loop of `make_comic` |
| `Panels` | panels.dfy | `_gen_panel_text` |
| `Sprites` | sprites.dfy | `char_map` and `_fit_img` |
| `Comic` | comic.dfy | the geometry of `make_comic` |
| `Decimal` | decimal.dfy | `str(n)` for packet ids |
| `Config` | config.dfy | `WeedBot.__init__` |
| `Bot` | bot.dfy | the counters, the packets, the table and the handlers |

## Model

| member | source | states |
|---|---|---|
| Panels.GenPanelText | ComicGenerator.py:18-28 | Flattening the panels gives back exactly the (sender, content) pairs, in order. For a non-empty input every panel has one or two entries, and a two-entry panel has two different senders. An empty input gives exactly one empty panel. A panel is closed exactly when it is full or the next sender repeats its only sender. |
| Panels.AlternatingSpeakers | ComicGenerator.py:21-27 | Speakers A, B, A give the panels [A, B] and [A]. |
| Panels.SameSpeaker | ComicGenerator.py:21-27 | Two consecutive messages from one speaker go into two separate panels. |
| Text.SplitJoin | ComicGenerator.py:31 | Splitting the space-joined words gives the words back. |
| Layout.WrapSpec | ComicGenerator.py:30-55 | The lines, re-split and concatenated, equal `st.split()`. No line is blank. There are no lines exactly when `st` has no words, and the box is then 0 by 0. Otherwise the box height is the sum of the line heights and its width is the widest line's width. |
| Layout.WrapTokensSpec | ComicGenerator.py:36-53 | The outer loop consumes at least one token per pass and builds the lines and the box from them. |
| Layout.WrapIsGreedy | ComicGenerator.py:37-47 | Every line was grown one word at a time: each run of its first words shorter than the whole line fits. A line other than the last one either fits and could not take the next word, which the loop tests only when at least two words remain after the line, or is a single word that is too wide on its own. Nothing more is known of the last line, which is never measured whole. |
| Layout.GreedyLinesUnique | ComicGenerator.py:36-53 | Any single-spaced lines that hold exactly the given words in order, were grown word by word and break by the rule above are the lines the loop builds from those words. |
| Layout.WrapUnique | ComicGenerator.py:30-55 | The lines of `_wrap` are single-spaced and non-blank, and they are the only single-spaced lines that hold the words of `st` in order and break by the greedy rule. |
| Layout.LastLineMayOverflow | ComicGenerator.py:38-49 | With a budget of 3 pixels at one pixel per character, "ab cd" becomes the single 5-pixel line "ab cd". The loop stops growing at the end of the words without measuring them. |
| Layout.RenderTextSpec | ComicGenerator.py:57-62 | Line k is drawn at x = `pos[0]` and y = `pos[1]` plus the heights of lines 0..k-1. |
| Layout.RenderTextWithin | ComicGenerator.py:57-62 | Every drawn line lies between `pos[1]` and `pos[1]` plus the total height. |
| Layout.BlockGeometry | ComicGenerator.py:49-62 | A wrapped block is drawn inside its box. Every line starts at `pos[0]` and ends within the box width. The widest line reaches the box's right edge. |
| Selection.SelectExcerpt | ComicGenerator.py:84-98 | The excerpt is a contiguous suffix of `msgs` in chronological order. Its characters are exactly its senders. It is non-empty when `msgs` is. |
| Selection.ScanFromScanned | ComicGenerator.py:85-98 | Loop invariant: after the scan, `trimmed` holds the messages from the stopping index on, newest first, and `characters` is exactly their senders. |
| Selection.SelectExcerptStops | ComicGenerator.py:86-97 | The scan passes over every later index and stops at the first index, counting backwards, where a trigger fires. The `msgs[-1]` comparison at index 0 is modelled as written. |
| Selection.ExcerptKeepsNewest | ComicGenerator.py:86-88 | The newest message is always in the excerpt. Only an empty list gives an empty excerpt. |
| Selection.ExcerptLength | ComicGenerator.py:95-97 | An excerpt holds at most 11 messages, because the triggering one is kept. |
| Selection.ExcerptSpeakers | ComicGenerator.py:92-94 | An excerpt has at most 4 senders, because the triggering one is kept. |
| Selection.ExcerptGaps | ComicGenerator.py:89-91 | For adjacent messages of an excerpt, the newer time minus the older time is at most 120 seconds. The difference is signed, so an older-looking newer message always passes. |
| Sprites.CharMap | ComicGenerator.py:105 | The k-th speaker in iteration order maps to the k-th path, for the first min(speakers, paths) speakers only. |
| Sprites.CharMapSize | ComicGenerator.py:105 | The map has min(speakers, paths) entries, and every value is one of the paths. |
| Sprites.CharMapInjective | ComicGenerator.py:105 | No two speakers share a sprite when the path list has no duplicates. |
| Sprites.CharMapCovers | ComicGenerator.py:105 | Every speaker has a sprite exactly when there are at least as many paths as speakers; otherwise the lookups of lines 134 and 141 can miss. |
| Sprites.CharMapOnto | ComicGenerator.py:105 | With enough paths, the keys are exactly the speakers. The values are paths, and they are distinct when the paths are. |
| Sprites.FitImg | ComicGenerator.py:64-76 | A zero image dimension is a division by zero. Otherwise the truncated size lies within both bounds. |
| Sprites.FitKeepsAspect | ComicGenerator.py:65-74 | The chosen size keeps the aspect ratio. The width fit is chosen whenever its height fits; otherwise the chosen size has exactly the height bound. |
| Sprites.FitIsLargest | ComicGenerator.py:65-74 | No larger uniform scale of the image stays within both bounds. |
| Comic.FitSprite | ComicGenerator.py:133-134 | A fitted sprite is at least one pixel on each side, at most 170 wide and at most `max_ch_height` tall. A degenerate image divides by zero. Negative room is a failed resize. Zero room, or a fitted size that truncates to zero on a side, is a failed resize too. |
| Comic.TextGeometry | ComicGenerator.py:122-131 | The first block is drawn at the margins, line by line, with its first line at y = 10. It ends above the text height. A second block exists exactly when a second text was wrapped. |
| Comic.SecondTextGeometry | ComicGenerator.py:125-131 | Every line of the second block starts at x = 440 − `st2w`, so its widest line ends exactly at x = 440. Its first line is drawn at y = `st1h + 10`, where the first block ends. Its last line ends above the text height. |
| Comic.TextWords | ComicGenerator.py:123-127 | The drawn lines carry exactly the words of the panel's texts: the first text's, and the second text's when there are two entries. |
| Comic.SpritePlacementSpec | ComicGenerator.py:133-143 | Sprite 1 is the first speaker's, at x = 10, unmirrored. Sprite 2 exists exactly for two-entry panels; it is the second speaker's, mirrored, with its right edge at 440. Both are bottom-aligned below the text and do not overlap. |
| Comic.SpriteErrors | ComicGenerator.py:133-143 | Placing a panel's sprites fails in one of four ways: one of its (at most two) speakers has no sprite, the sprite file of one of those speakers has a zero width or height, the text left negative room, or, with room of at least 0, the fitted size of one of those speakers' sprite files truncates to zero. |
| Comic.PlanPanel | ComicGenerator.py:117-147 | A drawn panel i is pasted at height 300·i, and each of its speakers has a sprite. An empty panel and a missing first sprite are errors. |
| Comic.PlanPanelsDrawn | ComicGenerator.py:117-147 | Every plan of the panel loop draws the panel of its index: pasted at 300·k over the background, with the panel's own entries laid out as text, its speakers' sprites, and the text above the sprites. |
| Comic.PanelTextPlaced | ComicGenerator.py:122-131 | A panel's first block holds the words of its first entry, every line drawn at x = 10 and the first at y = 10. There is a second block exactly for two entries; it holds the second entry's words, every line at x = 440 − its width, the first at y = first block's height + 10. |
| Comic.ComicText | ComicGenerator.py:117-131 | In a finished strip, panel k draws the words of group k's entries, with the first block anchored at (10, 10) and the second block, when group k has two entries, at (440 − its width, first block's height + 10). |
| Comic.ComicStrip | ComicGenerator.py:105-147 | A finished strip needs a background. It is 450 wide and 300 × (number of panels) tall, with one plan per panel group and the `char_map` in use. Every panel k is drawn at 300·k with group k's entries laid out as its text, its speakers' sprites, and the text above the sprites. |
| Comic.ComicSpritesSuffice | ComicGenerator.py:105-141 | A finished strip has a sprite for every speaker of the excerpt, so there were at least as many sprite files as speakers. |
| Comic.ComicSpriteMap | ComicGenerator.py:105 | In a finished strip the map's keys are exactly the excerpt's speakers. Its values are sprite files, pairwise distinct when the file list is. |
| Comic.ComicFailures | ComicGenerator.py:115-134 | No backgrounds means `bg_paths[0]` fails. No messages means the one empty panel fails at `panel[0]`. Otherwise a failure is the error of the first panel that cannot be drawn. |
| Config.LevelNamed | weedbot.py:39-50 | Exactly the five names debug, info, warning, error and critical are recognised, and a recognised name stands for the level whose name it is. |
| Config.LevelNameRoundTrip | weedbot.py:39-50 | Every one of the five levels is recognised under its own name. |
| Config.ResolveLogLevel | weedbot.py:34-50 | A missing level is "warning". Another string is valid exactly when it names a level. A non-string is a type error. |
| Config.Resolve | weedbot.py:34-92 | The constructor succeeds exactly on acceptable configurations. The log level is checked first, then "Missing room.", then "Missing imgur API key.". An accepted configuration keeps its given values, and the defaults are `room + ".log"`, 24, "weedbot.db", "WeedBot" and None. |
| Bot.IncrementErrorCount | weedbot.py:101-104 | The count goes up by exactly one, and the call raises exactly when the new count is at least 5. |
| Bot.IncrementTimesSpec | weedbot.py:101-104 | From a count below 5, n calls raise exactly when count + n reaches 5. The raising call leaves the count at 5; otherwise the count grows by n. |
| Bot.FifthErrorRaises | weedbot.py:101-104 | From the initial count of 0 (set in the constructor), the first four calls do not raise and the fifth does. |
| Bot.Send | weedbot.py:127-132 | Sending adds one packet and increments `msg_id` by exactly one. The table and the error count are unchanged. |
| Bot.SendSpec | weedbot.py:140-170 | The packet is appended, stamped with `str` of the old `msg_id`, and the stamping invariant is kept. |
| Bot.StampedIdsDistinct | weedbot.py:127-170 | No two sent packets share an id. |
| Bot.StartIds | weedbot.py:271-275 | A fresh bot sends the nick as packet "0". With a password, it sends the authentication as "0" and the nick as "1". |
| Bot.LoggedMessage | weedbot.py:179-192 | A missing parent is logged as "". Every other column is taken from the event. |
| Bot.Insert | weedbot.py:185-194 | A row whose (room, id) key is already present leaves the table unchanged, because the error is only logged. Otherwise the row is appended. |
| Bot.InsertKeepsKeysUnique | weedbot.py:185-194 | Logging keeps the primary key unique. |
| Bot.Cutoff | weedbot.py:196-198 | The cutoff plus `expire_hours`·3600 is the current time. A non-integer `expire_hours` is a type error. |
| Bot.Prune | weedbot.py:196-202 | Pruning never adds rows. |
| Bot.PruneSpec | weedbot.py:200 | Every row older than the cutoff is removed. Every other row is kept with its multiplicity, and everything kept is at or after the cutoff. |
| Bot.PruneIdempotent | weedbot.py:200 | Pruning a second time with the same cutoff changes nothing. |
| Bot.PruneKeepsKeysUnique | weedbot.py:200 | Pruning keeps the primary key unique. |
| Bot.HandlePing | weedbot.py:148-155 | The table is pruned with the cutoff. Exactly one "ping-reply" packet is sent, echoing the event's time under the current id, and `msg_id` goes up by one. It fails exactly when `expire_hours` is not an integer. |
| Bot.PlanComicSpec | weedbot.py:207-238 | A command without a parent gets the usage text on itself. An unknown parent gets the not-found reply on that parent. `msg_limit` is read only after that: a missing one is a `KeyError` and a non-integer one a type error. Otherwise the reply goes to the parent and holds the root's children up to the command's time (the children of "" when there is no root). The root is in front exactly when it exists and there are fewer than `msg_limit`. |
| Bot.HandleSendEventSpec | weedbot.py:172-245 | Every send-event is logged first. Content other than exactly "!comic" sends nothing. A "!comic" fails exactly when planning fails or drawing the candidates fails, and then sends nothing. Otherwise it sends exactly one "send" packet to the planned reply target: the usage text, the not-found text, or the drawn comic's link. |
| Bot.PlanComicNoCandidates | weedbot.py:224-238 | `make_comic` receives no candidates exactly when the root has no children up to the command's time and the root is not prepended, because it is missing or `msg_limit` is not positive. |
| Bot.NoCandidatesNoComic | weedbot.py:242 | Drawing an empty candidate list always raises: at `bg_paths[0]` without backgrounds, otherwise at `panel[0]` of the one empty panel. |
| Bot.EmptyComicUnanswered | weedbot.py:224-245 | A "!comic" whose conversation has no root and no top-level messages raises inside `make_comic`. No reply is sent and `msg_id` is unchanged. |
| Bot.DispatchKeepsInvariants | weedbot.py:248-254 | Handling any packet keeps the ids stamped by position and the table's key unique. |
| Bot.RunKeepsInvariants | weedbot.py:277-288 | Over a whole sequence of packets, ids never repeat and the table's key stays unique. |
| Decimal.NatToStringParses | weedbot.py:145 | `str(n)` is a canonical numeral that reads back as `n`. |
| Decimal.ParseNatPrints | weedbot.py:145 | Every canonical numeral is `str` of its value. |
| Decimal.NatToStringInjective | weedbot.py:145 | Different ids are printed differently. |
| Chat.SendersCons | ComicGenerator.py:85-88 | The senders of a list are the first sender plus the senders of the rest. The count grows by at most one. |

Behaviour of the code worth knowing:

- **Window size.** The message that trips a trigger is kept. An excerpt can therefore hold up to 11 messages and 4 speakers, one more than the thresholds `> 10` and `> 3` alone suggest.
- **Gap check.** The gap check is the signed difference `msgs[i].time - msgs[i-1].time`. At `i == 0`, Python's `msgs[-1]` compares the oldest message with the newest one.
- **Last wrapped line.** The last line of `_wrap` is never measured as a whole, so it can be wider than the budget even when it holds several words.
- **Text is used as sent.** Message text goes into `_wrap` unchanged and is split on whitespace exactly as `str.split()` does.

## Left out

- Pixels, fonts and images (PIL): `draw.textsize` is a measure parameter, image files are a size-lookup parameter, and only the computed coordinates and sizes are modelled.
- `random.shuffle` of the sprite and background lists (ComicGenerator.py:81-82): the shuffled lists are parameters, and so is the iteration order of the speaker set.
- Floating point: `_fit_img` is computed over exact reals. The bounds `2*panel_width/3.0` and `2*panel_width/5.0-10` are taken as exactly 300 and 170. `int()` truncation of the fitted sizes is modelled.
- Sprites.FitImg: it requires a positive width bound and a non-negative height bound. `make_comic` passes a negative height when the text leaves no room; that case is reported as `SpriteRoomNegative` before `_fit_img` is reached. A zero-sided result is returned by `FitImg`; `Comic.FitSprite` reports it as the failed resize `EmptyResize`.
- Colours and the border's pixel drawing: the border is kept as its list of corners.
- The WebSocket connection, reconnection after a closed connection, and the sleeps. Sending always succeeds, so the retry recursion of `_send_packet` (weedbot.py:133-138) is left out.
- SQLite: the `message` table is a sequence of rows. The two `SELECT ... WHERE id = ?` queries and the children query are lookup parameters of `Bot.PlanComic`. The ordering by time is the children parameter's responsibility. Failures of the engine other than the primary-key violation are left out.
- YAML loading and the missing-configuration-file error (weedbot.py:26-32): the configuration is given as a map from keys to strings, integers or null; other YAML types are left out. `_connect` and the table creation in the constructor are left out.
- The imgur upload and JPEG/base64 encoding (weedbot.py:243, 257-269): the upload is a parameter from the drawn strip to the text it returns, which is the link or imgur's error message. A failing HTTP request is not modelled.
- Bot.RunKeepsInvariants: the endless `run` loop is modelled as a finite sequence of received packets, each paired with the clock reading used for pruning, and it stops at the first exception. Reconnecting and re-sending the nick are left out. One `lookup`, one `children` and one drawing serve the whole run. In the source, the queries read a table that changes as rows are logged and pruned (weedbot.py:185-202), and `make_comic` reshuffles its lists on every call (ComicGenerator.py:81-82). The invariants are proved for any such functions, but the model does not tie them to the table's state at each packet.
- Bot.Cutoff: `time.time()` is the parameter `now`, already truncated to whole seconds. In Python, a string `expire_hours` is repeated rather than multiplied, which fails later at the subtraction; the model reports both this and `None` as a type error.
- `_increment_error_count` is called by no handler in the source, so it is modelled on its own.
- Logging calls and `print`.
- comic.py: an unfinished draft that does not import, returns nothing and duplicates `_gen_panel_text`. Only `ComicGenerator.py` is modelled.

=== FILE: bot.dfy ===
/**
 * The decision rules of `WeedBot`: the error counter, the packets it sends
 * and the ids stamped on them, logging of send-events into the `message`
 * table, pruning of old rows, and the assembly of a comic request. The
 * connection, the database engine and the image upload are not modelled:
 * sending always eventually succeeds, the table is a sequence of rows, the
 * two lookups of a comic request are given as functions, and drawing and
 * uploading the comic is given as a function of the candidate messages
 * that either gives the link or fails with the error `make_comic` raises.
 * Line numbers in the comments of this module refer to `weedbot.py`.
 */
module Bot {
  import opened Wrappers
  import opened Chat
  import opened Decimal
  import opened Config
  import Layout
  import Selection
  import Sprites
  import Comic

  /** weedbot.py line 16: the error budget of a bot. */
  const MaxErrors: nat := 5

  /** The mutable counters of a bot: the next packet id and the error count. */
  datatype BotState = BotState(msgId: nat, errorCount: nat)

  /** weedbot.py lines 70-71: both counters start at 0. */
  const Initial: BotState := BotState(0, 0)

  /** The state after a call and whether the call raised `TooManyErrorsError`. */
  datatype Counted = Counted(state: BotState, raised: bool)

  /**
   * Lines 101-104: the count goes up by one, also when the call then
   * raises, which it does once the new count reaches `MAX_ERRORS`.
   */
  function IncrementErrorCount(s: BotState): (r: Counted)
    ensures r.state.errorCount == s.errorCount + 1 && r.state.msgId == s.msgId
    ensures r.raised <==> r.state.errorCount >= MaxErrors
  {
    var t := s.(errorCount := s.errorCount + 1);
    Counted(t, t.errorCount >= MaxErrors)
  }

  /** `n` calls in a row; the first one that raises ends the run. */
  function IncrementTimes(s: BotState, n: nat): Counted
    decreases n
  {
    if n == 0 then Counted(s, false)
    else
      var c := IncrementErrorCount(s);
      if c.raised then c else IncrementTimes(c.state, n - 1)
  }

  /**
   * From a count below the limit, `n` calls raise exactly when they bring
   * the count to `MAX_ERRORS`; the raising call leaves the count at exactly
   * `MAX_ERRORS`, and otherwise every call added one.
   */
  lemma {:induction false} IncrementTimesSpec(s: BotState, n: nat)
    requires s.errorCount < MaxErrors
    ensures var r := IncrementTimes(s, n);
      && (r.raised <==> s.errorCount + n >= MaxErrors)
      && (r.raised ==> r.state.errorCount == MaxErrors)
      && (!r.raised ==> r.state.errorCount == s.errorCount + n)
      && r.state.msgId == s.msgId
    decreases n
  {
    if n > 0 {
      var c := IncrementErrorCount(s);
      if !c.raised {
        IncrementTimesSpec(c.state, n - 1);
      }
    }
  }

  /** With the counters as the constructor leaves them, the fifth call is the first that raises. */
  lemma FifthErrorRaises()
    ensures forall n: nat :: n < MaxErrors ==> !IncrementTimes(Initial, n).raised
    ensures IncrementTimes(Initial, MaxErrors).raised
  {
    forall n: nat | n < MaxErrors
      ensures !IncrementTimes(Initial, n).raised
    {
      IncrementTimesSpec(Initial, n);
    }
    IncrementTimesSpec(Initial, MaxErrors);
  }

  /** The `data` of the packets the bot sends. */
  datatype PacketData =
    | AuthData(passcode: Value)       // lines 142-145
    | PingReplyData(time: int)        // lines 152-154
    | NickData(name: Value)           // lines 159-161
    | SendData(content: string, parent: string) // lines 166-169

  /** A packet as sent: its `type`, its `data` and its `id`. */
  datatype Packet = Packet(kind: string, data: PacketData, id: string)

  function KindOf(d: PacketData): string {
    match d
    case AuthData(_) => "auth"
    case PingReplyData(_) => "ping-reply"
    case NickData(_) => "nick"
    case SendData(_, _) => "send"
  }

  /** One row of the `message` table: the room and the message columns. */
  datatype Row = Row(room: Value, msg: Message)

  /** What the bot has done so far: its counters, every packet sent, and the table. */
  datatype World = World(state: BotState, sent: seq<Packet>, db: seq<Row>)

  /**
   * A packet builder followed by `_send_packet` (lines 127-170): the packet
   * is stamped with `str(msg_id)` when it is built, and `msg_id` goes up by
   * one once the send returns.
   */
  function Send(w: World, d: PacketData): (r: World)
    ensures r.state.msgId == w.state.msgId + 1 && r.state.errorCount == w.state.errorCount
    ensures r.db == w.db && |r.sent| == |w.sent| + 1
  {
    var p := Packet(KindOf(d), d, NatToString(w.state.msgId));
    World(w.state.(msgId := w.state.msgId + 1), w.sent + [p], w.db)
  }

  /** Every packet so far was stamped with its position, and `msg_id` counts them. */
  predicate Stamped(w: World) {
    && w.state.msgId == |w.sent|
    && forall k :: 0 <= k < |w.sent| ==> w.sent[k].id == NatToString(k)
  }

  /** Sending appends exactly the new packet, stamped with the old `msg_id`, and keeps the stamping. */
  lemma SendSpec(w: World, d: PacketData)
    ensures var r := Send(w, d);
      && r.sent[..|w.sent|] == w.sent
      && r.sent[|w.sent|] == Packet(KindOf(d), d, NatToString(w.state.msgId))
      && (Stamped(w) ==> Stamped(r))
  {
    var r := Send(w, d);
    assert r.sent[..|w.sent|] == w.sent;
  }

  /** No two packets of a stamped history share an id. */
  lemma StampedIdsDistinct(w: World)
    requires Stamped(w)
    ensures forall j, k :: 0 <= j < k < |w.sent| ==> w.sent[j].id != w.sent[k].id
  {
    forall j, k | 0 <= j < k < |w.sent|
      ensures w.sent[j].id != w.sent[k].id
    {
      NatToStringInjective(j, k);
    }
  }

  /** A send-event as received: the `parent` key may be missing. */
  datatype SendEvent = SendEvent(id: string, parent: Option<string>, time: int, sender: string, content: string)

  /** The row a send-event is logged as (lines 181-192); a missing parent becomes "". */
  function LoggedMessage(ev: SendEvent): (m: Message)
    ensures m.parent == (if ev.parent.Some? then ev.parent.value else "")
    ensures m.id == ev.id && m.time == ev.time && m.sender == ev.sender && m.content == ev.content
  {
    Message(ev.id, ev.parent.GetOr(""), ev.time, ev.sender, ev.content)
  }

  /** Two rows with the same primary key `(room, id)`. */
  predicate SameKey(a: Row, b: Row) {
    a.room == b.room && a.msg.id == b.msg.id
  }

  /** No two rows of the table share a primary key. */
  predicate KeysUnique(db: seq<Row>) {
    forall j, k :: 0 <= j < k < |db| ==> !SameKey(db[j], db[k])
  }

  /**
   * `INSERT INTO message`: a row whose key is already present violates the
   * primary key; the `sqlite3.Error` is logged and the table is unchanged.
   */
  function Insert(db: seq<Row>, row: Row): (r: seq<Row>)
    ensures (exists k :: 0 <= k < |db| && SameKey(db[k], row)) ==> r == db
    ensures (forall k :: 0 <= k < |db| ==> !SameKey(db[k], row)) ==> r == db + [row]
  {
    if exists k :: 0 <= k < |db| && SameKey(db[k], row) then db else db + [row]
  }

  /** Inserting keeps the primary key unique. */
  lemma InsertKeepsKeysUnique(db: seq<Row>, row: Row)
    requires KeysUnique(db)
    ensures KeysUnique(Insert(db, row))
  {
    var r := Insert(db, row);
    if forall k :: 0 <= k < |db| ==> !SameKey(db[k], row) {
      forall j, k | 0 <= j < k < |r|
        ensures !SameKey(r[j], r[k])
      {
        if k == |db| {
          assert r[j] == db[j] && r[k] == row;
        } else {
          assert r[j] == db[j] && r[k] == db[k];
        }
      }
    }
  }

  /** `_log_send_event`. */
  function LogSendEvent(w: World, room: Value, ev: SendEvent): World {
    w.(db := Insert(w.db, Row(room, LoggedMessage(ev))))
  }

  /** Why a handler raises. */
  datatype BotError =
    | ArithTypeError  // arithmetic or comparison with a configuration value of the wrong type
    | KeyError   // `self.cfg["msg_limit"]` with no such key
    | DrawError(error: Comic.ComicError) // `make_comic` raised while drawing the candidates

  /** Line 198: the cutoff `now - expire_hours*60*60`, for the whole-second time `now`. */
  function Cutoff(now: int, expireHours: Value): (r: Result<int, BotError>)
    ensures expireHours.Int? <==> r.Ok?
    ensures r.Ok? ==> r.value + expireHours.n * 3600 == now
  {
    match expireHours
    case Int(h) => Ok(now - h * 60 * 60)
    case _ => Err(BotError.ArithTypeError)
  }

  /** Line 200: `DELETE FROM message WHERE time < cutoff`. */
  function Prune(db: seq<Row>, cutoff: int): (r: seq<Row>)
    ensures |r| <= |db|
  {
    if db == [] then []
    else if db[0].msg.time < cutoff then Prune(db[1..], cutoff)
    else [db[0]] + Prune(db[1..], cutoff)
  }

  /**
   * Pruning removes every row older than the cutoff and keeps every other
   * row, as often as it occurs; the rows it keeps are all at or after the
   * cutoff.
   */
  lemma {:induction false} PruneSpec(db: seq<Row>, cutoff: int)
    ensures var r := Prune(db, cutoff);
      && (forall x :: multiset(r)[x] == if x.msg.time < cutoff then 0 else multiset(db)[x])
      && (forall k :: 0 <= k < |r| ==> r[k].msg.time >= cutoff)
  {
    if db != [] {
      PruneSpec(db[1..], cutoff);
      assert db == [db[0]] + db[1..];
      assert multiset(db) == multiset{db[0]} + multiset(db[1..]);
    }
  }

  /** Rows are kept in their order: pruning is a filter, so pruning again changes nothing. */
  lemma {:induction false} PruneIdempotent(db: seq<Row>, cutoff: int)
    ensures Prune(Prune(db, cutoff), cutoff) == Prune(db, cutoff)
  {
    if db != [] {
      PruneIdempotent(db[1..], cutoff);
      if db[0].msg.time >= cutoff {
        var r := Prune(db, cutoff);
        assert r[0] == db[0] && r[1..] == Prune(db[1..], cutoff);
      }
    }
  }

  /** A table with a unique key: its first row's key is not repeated, and its rest has a unique key. */
  lemma KeysUniqueTail(db: seq<Row>)
    requires KeysUnique(db) && db != []
    ensures KeysUnique(db[1..])
    ensures forall x :: x in db[1..] ==> !SameKey(db[0], x)
  {
    forall j, k | 0 <= j < k < |db| - 1
      ensures !SameKey(db[1..][j], db[1..][k])
    {
      assert db[1..][j] == db[j + 1] && db[1..][k] == db[k + 1];
    }
  }

  /** A row whose key the rest does not repeat, in front of a table with a unique key. */
  lemma KeysUniqueCons(a: Row, rest: seq<Row>)
    requires KeysUnique(rest)
    requires forall x :: x in rest ==> !SameKey(a, x)
    ensures KeysUnique([a] + rest)
  {
    var r := [a] + rest;
    forall j, k | 0 <= j < k < |r|
      ensures !SameKey(r[j], r[k])
    {
      assert r[k] == rest[k - 1];
      if j > 0 {
        assert r[j] == rest[j - 1];
      }
    }
  }

  /** Pruning keeps the primary key unique. */
  lemma {:induction false} PruneKeepsKeysUnique(db: seq<Row>, cutoff: int)
    requires KeysUnique(db)
    ensures KeysUnique(Prune(db, cutoff))
    decreases |db|
  {
    if db != [] {
      KeysUniqueTail(db);
      PruneKeepsKeysUnique(db[1..], cutoff);
      if db[0].msg.time >= cutoff {
        var rest := Prune(db[1..], cutoff);
        PruneSpec(db[1..], cutoff);
        forall x | x in rest
          ensures !SameKey(db[0], x)
        {
          assert x in multiset(rest);
          assert x in db[1..];
        }
        KeysUniqueCons(db[0], rest);
      }
    }
  }

  /** The prune that opens `_handle_ping_event` (lines 148-155), then the reply echoing the event's time. */
  function HandlePing(w: World, now: int, expireHours: Value, time: int): (r: Result<World, BotError>)
    ensures r.Ok? <==> expireHours.Int?
    ensures r.Ok? ==>
      && r.value.db == Prune(w.db, now - expireHours.n * 3600)
      && r.value.sent == w.sent + [Packet("ping-reply", PingReplyData(time), NatToString(w.state.msgId))]
      && r.value.state == w.state.(msgId := w.state.msgId + 1)
  {
    var cutoff :- Cutoff(now, expireHours);
    var pruned := w.(db := Prune(w.db, cutoff));
    Ok(Send(pruned, PingReplyData(time)))
  }

  /** What `_handle_comic` answers a request with. */
  datatype ComicRequest =
    | Usage(replyTo: string)                          // lines 211-215: the command has no parent
    | NotFound(replyTo: string)                       // lines 219-222: its parent is not in the table
    | Draw(candidates: seq<Message>, replyTo: string) // lines 224-245

  const UsageText: string := "Usage: reply on a new level to the last message you want included in the comic."
  const NotFoundText: string := "Error: message not found in database."

  /**
   * Lines 207-238: `lookup(id)` is the row the `WHERE id = ?` query
   * fetches, and `children(parent, newest)` the rows with that parent up to
   * time `newest`, oldest first. The conversation's root is prepended when
   * it exists and there are fewer than `msg_limit` candidates. The setting
   * `msg_limit` is read only once the parent was found; a missing one
   * raises `KeyError`, and one that is not an integer cannot be compared.
   */
  function PlanComic(ev: SendEvent, msgLimit: Option<Value>, lookup: string -> Option<Message>,
                     children: (string, int) -> seq<Message>): Result<ComicRequest, BotError>
  {
    var newest := ev.time;
    match ev.parent
    case None => Ok(Usage(ev.id))
    case Some(lastId) =>
      match lookup(lastId)
      case None => Ok(NotFound(lastId))
      case Some(last) =>
        var root := lookup(last.parent);
        var rootId := if root.Some? then root.value.id else "";
        match msgLimit
        case None => Err(KeyError)
        case Some(Int(limit)) =>
          var candidates := children(rootId, newest);
          if |candidates| < limit && root.Some? then Ok(Draw([root.value] + candidates, lastId))
          else Ok(Draw(candidates, lastId))
        case Some(_) => Err(BotError.ArithTypeError)
  }

  /**
   * A command without a parent gets the usage text on itself, one whose
   * parent is unknown gets the not-found reply on that parent; only then
   * does `msg_limit` matter. Otherwise the comic reply goes to the parent,
   * and the candidates are the children of the root (of "" when there is
   * no root) up to the command's time, with the root in front exactly when
   * it exists and there are fewer than `msg_limit`.
   */
  lemma PlanComicSpec(ev: SendEvent, msgLimit: Option<Value>, lookup: string -> Option<Message>,
                      children: (string, int) -> seq<Message>)
    ensures var r := PlanComic(ev, msgLimit, lookup, children);
      && (ev.parent.None? ==> r == Ok(Usage(ev.id)))
      && (ev.parent.Some? && lookup(ev.parent.value).None? ==> r == Ok(NotFound(ev.parent.value)))
      && (ev.parent.Some? && lookup(ev.parent.value).Some? ==>
            && (msgLimit.None? ==> r == Err(KeyError))
            && (msgLimit.Some? && !msgLimit.value.Int? ==> r == Err(BotError.ArithTypeError))
            && (msgLimit.Some? && msgLimit.value.Int? ==> r.Ok? && r.value.Draw?))
    ensures var r := PlanComic(ev, msgLimit, lookup, children);
      r.Ok? && r.value.Draw? ==>
        && ev.parent.Some? && r.value.replyTo == ev.parent.value
        && lookup(ev.parent.value).Some? && msgLimit.Some? && msgLimit.value.Int?
        && var limit := msgLimit.value.n;
           var root := lookup(lookup(ev.parent.value).value.parent);
           var kids := children(if root.Some? then root.value.id else "", ev.time);
           && (root.Some? && |kids| < limit ==> r.value.candidates == [root.value] + kids)
           && (root.None? || |kids| >= limit ==> r.value.candidates == kids)
  {
  }

  /**
   * A drawing of the candidates: `make_comic` followed by the upload, giving
   * the link or the exception `make_comic` raised.
   */
  type Drawing = seq<Message> -> Result<string, Comic.ComicError>

  /**
   * Lines 242-243 with the parts the model leaves open as parameters: the
   * iteration order of the speaker set, the shuffled sprite and background
   * lists, the font metrics, the sizes of the image files, and the upload.
   */
  function DrawAndUpload(msgs: seq<Message>, speakerOrder: seq<string>, charPaths: seq<string>,
                         bgPaths: seq<string>, m: Layout.Measure, spriteSize: string -> Sprites.Size,
                         upload: Comic.Strip -> string): Result<string, Comic.ComicError>
    requires Sprites.Enumerates(speakerOrder, Selection.SelectExcerpt(msgs).characters)
  {
    match Comic.MakeComic(msgs, speakerOrder, charPaths, bgPaths, m, spriteSize)
    case Ok(strip) => Ok(upload(strip))
    case Err(e) => Err(e)
  }

  /**
   * Drawing no candidates always fails: without a background at
   * `bg_paths[0]`, and otherwise at `panel[0]` of the one empty panel.
   */
  lemma NoCandidatesNoComic(charPaths: seq<string>, bgPaths: seq<string>, m: Layout.Measure,
                            spriteSize: string -> Sprites.Size, upload: Comic.Strip -> string)
    ensures Sprites.Enumerates([], Selection.SelectExcerpt([]).characters)
    ensures DrawAndUpload([], [], charPaths, bgPaths, m, spriteSize, upload) ==
      Err(if bgPaths == [] then Comic.NoBackground else Comic.EmptyPanel)
  {
    Selection.ExcerptKeepsNewest([]);
    assert Sprites.Enumerates([], Selection.SelectExcerpt([]).characters);
    Comic.ComicFailures([], [], charPaths, bgPaths, m, spriteSize);
  }

  /** The `send` packet answering a request, or the error of drawing the candidates. */
  function Reply(req: ComicRequest, draw: Drawing): Result<PacketData, BotError> {
    match req
    case Usage(replyTo) => Ok(SendData(UsageText, replyTo))
    case NotFound(replyTo) => Ok(SendData(NotFoundText, replyTo))
    case Draw(candidates, replyTo) =>
      match draw(candidates)
      case Ok(link) => Ok(SendData(link, replyTo))
      case Err(e) => Err(DrawError(e))
  }

  /** The settings the handlers read. */
  datatype Env = Env(room: Value, expireHours: Value, msgLimit: Option<Value>)

  /** `_handle_comic`: plan the request, draw it if asked to, then send the one reply. */
  function HandleComic(w: World, env: Env, ev: SendEvent, lookup: string -> Option<Message>,
                       children: (string, int) -> seq<Message>, draw: Drawing): Result<World, BotError>
  {
    var req :- PlanComic(ev, env.msgLimit, lookup, children);
    var data :- Reply(req, draw);
    Ok(Send(w, data))
  }

  /** Lines 172-176: every send-event is logged first; exactly "!comic" is a comic request. */
  function HandleSendEvent(w: World, env: Env, ev: SendEvent, lookup: string -> Option<Message>,
                           children: (string, int) -> seq<Message>, draw: Drawing): Result<World, BotError>
  {
    var logged := LogSendEvent(w, env.room, ev);
    if ev.content == "!comic" then HandleComic(logged, env, ev, lookup, children, draw) else Ok(logged)
  }

  /**
   * A send-event is always logged; only the content "!comic" makes the bot
   * answer, with exactly one `send` packet: the usage text on the command
   * itself, the not-found text on an unknown parent, or the link to the
   * drawn comic on the parent. It fails exactly when the plan fails or the
   * drawing of the candidates does, and then sends nothing.
   */
  lemma HandleSendEventSpec(w: World, env: Env, ev: SendEvent, lookup: string -> Option<Message>,
                            children: (string, int) -> seq<Message>, draw: Drawing)
    ensures var r := HandleSendEvent(w, env, ev, lookup, children, draw);
      && (ev.content != "!comic" ==> r == Ok(w.(db := Insert(w.db, Row(env.room, LoggedMessage(ev))))))
      && (r.Ok? ==> r.value.db == Insert(w.db, Row(env.room, LoggedMessage(ev))))
    ensures var r := HandleSendEvent(w, env, ev, lookup, children, draw);
      var plan := PlanComic(ev, env.msgLimit, lookup, children);
      ev.content == "!comic" ==>
        && (r.Ok? <==> plan.Ok? && (plan.value.Draw? ==> draw(plan.value.candidates).Ok?))
        && (plan.Err? ==> r == Err(plan.error))
        && (plan.Ok? && plan.value.Draw? && draw(plan.value.candidates).Err? ==>
              r == Err(DrawError(draw(plan.value.candidates).error)))
        && (r.Ok? ==>
              var req := plan.value;
              && |r.value.sent| == |w.sent| + 1
              && r.value.sent[..|w.sent|] == w.sent
              && r.value.sent[|w.sent|].kind == "send"
              && r.value.sent[|w.sent|].data.parent == req.replyTo
              && (req.Usage? ==> r.value.sent[|w.sent|].data.content == UsageText)
              && (req.NotFound? ==> r.value.sent[|w.sent|].data.content == NotFoundText)
              && (req.Draw? ==> r.value.sent[|w.sent|].data.content == draw(req.candidates).value))
  {
    var logged := LogSendEvent(w, env.room, ev);
    var plan := PlanComic(ev, env.msgLimit, lookup, children);
    if ev.content == "!comic" && plan.Ok? && Reply(plan.value, draw).Ok? {
      SendSpec(logged, Reply(plan.value, draw).value);
    }
  }

  /**
   * `make_comic` is handed no candidates exactly when the root has no
   * children up to the command's time and the root is not prepended: it is
   * missing, or `msg_limit` is not positive.
   */
  lemma PlanComicNoCandidates(ev: SendEvent, msgLimit: Option<Value>, lookup: string -> Option<Message>,
                              children: (string, int) -> seq<Message>)
    ensures var r := PlanComic(ev, msgLimit, lookup, children);
      r.Ok? && r.value.Draw? ==>
        var root := lookup(lookup(ev.parent.value).value.parent);
        var kids := children(if root.Some? then root.value.id else "", ev.time);
        (r.value.candidates == [] <==> kids == [] && (root.None? || msgLimit.value.n <= 0))
  {
    PlanComicSpec(ev, msgLimit, lookup, children);
  }

  /**
   * A "!comic" reply to a message whose conversation has no root and no
   * messages at its top level hands `make_comic` nothing to draw, so the
   * handler raises, nothing is sent, and `msg_id` stays where it was.
   */
  lemma EmptyComicUnanswered(w: World, env: Env, ev: SendEvent, lookup: string -> Option<Message>,
                             children: (string, int) -> seq<Message>, charPaths: seq<string>,
                             bgPaths: seq<string>, m: Layout.Measure, spriteSize: string -> Sprites.Size,
                             upload: Comic.Strip -> string, draw: Drawing)
    requires ev.content == "!comic" && ev.parent.Some? && lookup(ev.parent.value).Some?
    requires env.msgLimit.Some? && env.msgLimit.value.Int?
    requires lookup(lookup(ev.parent.value).value.parent).None? && children("", ev.time) == []
    requires Sprites.Enumerates([], Selection.SelectExcerpt([]).characters)
    requires draw([]) == DrawAndUpload([], [], charPaths, bgPaths, m, spriteSize, upload)
    ensures var r := HandleSendEvent(w, env, ev, lookup, children, draw);
      r == Err(DrawError(if bgPaths == [] then Comic.NoBackground else Comic.EmptyPanel))
  {
    NoCandidatesNoComic(charPaths, bgPaths, m, spriteSize, upload);
    PlanComicSpec(ev, env.msgLimit, lookup, children);
    HandleSendEventSpec(w, env, ev, lookup, children, draw);
  }

  /** A packet received from the room. */
  datatype Incoming =
    | PingEvent(time: int)
    | SendEventPacket(event: SendEvent)
    | OtherPacket(kind: string)

  /** `_dispatch` (lines 248-254): other packet types are ignored. */
  function Dispatch(w: World, env: Env, p: Incoming, now: int, lookup: string -> Option<Message>,
                    children: (string, int) -> seq<Message>, draw: Drawing): Result<World, BotError>
  {
    match p
    case PingEvent(time) => HandlePing(w, now, env.expireHours, time)
    case SendEventPacket(ev) => HandleSendEvent(w, env, ev, lookup, children, draw)
    case OtherPacket(_) => Ok(w)
  }

  /** Handling a packet keeps every id stamped with its position and the table's key unique. */
  lemma DispatchKeepsInvariants(w: World, env: Env, p: Incoming, now: int, lookup: string -> Option<Message>,
                                children: (string, int) -> seq<Message>, draw: Drawing)
    requires Stamped(w) && KeysUnique(w.db)
    ensures var r := Dispatch(w, env, p, now, lookup, children, draw);
      r.Ok? ==> Stamped(r.value) && KeysUnique(r.value.db)
  {
    var r := Dispatch(w, env, p, now, lookup, children, draw);
    if r.Ok? {
      match p
      case PingEvent(time) =>
        var cutoff := Cutoff(now, env.expireHours).value;
        var pruned := w.(db := Prune(w.db, cutoff));
        PruneKeepsKeysUnique(w.db, cutoff);
        SendSpec(pruned, PingReplyData(time));
      case SendEventPacket(ev) =>
        var logged := LogSendEvent(w, env.room, ev);
        InsertKeepsKeysUnique(w.db, Row(env.room, LoggedMessage(ev)));
        var plan := PlanComic(ev, env.msgLimit, lookup, children);
        if ev.content == "!comic" && plan.Ok? && Reply(plan.value, draw).Ok? {
          SendSpec(logged, Reply(plan.value, draw).value);
        }
      case OtherPacket(_) =>
    }
  }

  /** The `run` loop over the packets received, stopped by the first exception. */
  function Run(w: World, env: Env, packets: seq<(Incoming, int)>, lookup: string -> Option<Message>,
               children: (string, int) -> seq<Message>, draw: Drawing): Result<World, BotError>
    decreases |packets|
  {
    if packets == [] then Ok(w)
    else
      var next :- Dispatch(w, env, packets[0].0, packets[0].1, lookup, children, draw);
      Run(next, env, packets[1..], lookup, children, draw)
  }

  /** Over a whole session, packet ids never repeat and the table's key stays unique. */
  lemma {:induction false} RunKeepsInvariants(w: World, env: Env, packets: seq<(Incoming, int)>,
                                              lookup: string -> Option<Message>,
                                              children: (string, int) -> seq<Message>, draw: Drawing)
    requires Stamped(w) && KeysUnique(w.db)
    ensures var r := Run(w, env, packets, lookup, children, draw);
      r.Ok? ==>
        && Stamped(r.value) && KeysUnique(r.value.db)
        && forall j, k :: 0 <= j < k < |r.value.sent| ==> r.value.sent[j].id != r.value.sent[k].id
    decreases |packets|
  {
    var r := Run(w, env, packets, lookup, children, draw);
    if packets != [] && r.Ok? {
      DispatchKeepsInvariants(w, env, packets[0].0, packets[0].1, lookup, children, draw);
      var next := Dispatch(w, env, packets[0].0, packets[0].1, lookup, children, draw).value;
      RunKeepsInvariants(next, env, packets[1..], lookup, children, draw);
    } else if r.Ok? {
      StampedIdsDistinct(w);
    }
  }

  /** Lines 272-274: authenticate when a password is configured, then set the nick. */
  function Start(w: World, settings: Settings): World {
    var authed := if settings.password != Null then Send(w, AuthData(settings.password)) else w;
    Send(authed, NickData(settings.nick))
  }

  /** A fresh bot sends "0" for its first packet: the nick, or the authentication followed by the nick as "1". */
  lemma StartIds(settings: Settings)
    ensures var r := Start(World(Initial, [], []), settings);
      && Stamped(r)
      && (settings.password == Null ==> r.sent == [Packet("nick", NickData(settings.nick), "0")])
      && (settings.password != Null ==>
            r.sent == [Packet("auth", AuthData(settings.password), "0"), Packet("nick", NickData(settings.nick), "1")])
  {
    var w := World(Initial, [], []);
    assert Stamped(w);
    if settings.password != Null {
      var a := Send(w, AuthData(settings.password));
      SendSpec(w, AuthData(settings.password));
      SendSpec(a, NickData(settings.nick));
    } else {
      SendSpec(w, NickData(settings.nick));
    }
  }
}

=== FILE: chat.dfy ===
/** The message record the bot stores and the comic generator consumes. */
module Chat {

  /**
   * One row of the `message` table as the comic generator reads it
   * (columns `id`, `parent`, `time`, `sender`, `content`). A message with
   * no parent is stored with parent "".
   */
  datatype Message = Message(id: string, parent: string, time: int, sender: string, content: string)

  /** The set of distinct senders of a run of messages. */
  function Senders(msgs: seq<Message>): set<string> {
    set k | 0 <= k < |msgs| :: msgs[k].sender
  }

  /** Adding one message to the front adds its sender, so at most one new name. */
  lemma SendersCons(msgs: seq<Message>)
    requires |msgs| > 0
    ensures Senders(msgs) == {msgs[0].sender} + Senders(msgs[1..])
    ensures |Senders(msgs)| <= |Senders(msgs[1..])| + 1
  {
    var rest := msgs[1..];
    forall s | s in Senders(msgs)
      ensures s in {msgs[0].sender} + Senders(rest)
    {
      var k :| 0 <= k < |msgs| && msgs[k].sender == s;
      if k > 0 {
        assert rest[k - 1].sender == s;
      }
    }
    forall s | s in Senders(rest)
      ensures s in Senders(msgs)
    {
      var k :| 0 <= k < |rest| && rest[k].sender == s;
      assert msgs[k + 1].sender == s;
    }
    assert msgs[0].sender in Senders(msgs);
    if msgs[0].sender in Senders(rest) {
      assert {msgs[0].sender} + Senders(rest) == Senders(rest);
    }
  }

  /** Adding one message to the back adds its sender. */
  lemma SendersSnoc(msgs: seq<Message>, m: Message)
    ensures Senders(msgs + [m]) == Senders(msgs) + {m.sender}
  {
    var r := msgs + [m];
    forall s | s in Senders(r)
      ensures s in Senders(msgs) + {m.sender}
    {
      var k :| 0 <= k < |r| && r[k].sender == s;
      if k < |msgs| {
        assert msgs[k].sender == s;
      }
    }
    forall s | s in Senders(msgs)
      ensures s in Senders(r)
    {
      var k :| 0 <= k < |msgs| && msgs[k].sender == s;
      assert r[k].sender == s;
    }
    assert r[|msgs|].sender == m.sender;
  }
}

=== FILE: comic.dfy ===
/**
 * `ComicGenerator.make_comic`: the excerpt, the panels, the sprite map and
 * the integer geometry of every panel and of the strip. Pixels are not
 * modelled; each panel is described by what is drawn where. Line numbers
 * in the comments of this module refer to `ComicGenerator.py`.
 */
module Comic {
  import opened Wrappers
  import opened Chat
  import opened Text
  import opened Layout
  import opened Selection
  import opened Panels
  import opened Sprites

  const PanelWidth: int := 450
  const PanelHeight: int := 300
  /** Distance of text and sprites from the panel edges. */
  const Margin: int := 10
  /** Wrap budget `2*panel_width/3.0`, which is exactly 300. */
  const TextWidth: int := 300
  /** Sprite width bound `2*panel_width/5.0-10`, which is exactly 170. */
  const SpriteWidth: real := 170.0

  /** Why `make_comic` raises instead of returning an image. */
  datatype ComicError =
    | NoBackground                 // `self.bg_paths[0]` on an empty list
    | EmptyPanel                   // `panel[0]` on the single empty panel of an empty excerpt
    | MissingSprite(speaker: string) // `char_map[...]` for a speaker without a sprite
    | ZeroSizedSprite(path: string)  // division by a zero image dimension in `_fit_img`
    | SpriteRoomNegative           // text taller than the panel: `_fit_img` gets a negative height
    | EmptyResize(path: string)      // `resize` to a size with a zero side

  /** A block of wrapped text and where each of its lines is drawn. */
  datatype TextBlock = TextBlock(wrapped: Wrapped, drawn: seq<DrawnLine>)

  /** A resized sprite pasted with its top-left corner at `at`. */
  datatype SpritePlacement = SpritePlacement(path: string, at: Point, size: Size, mirrored: bool)

  /** One panel, in panel coordinates, and the height `top` it is pasted at in the strip. */
  datatype PanelPlan = PanelPlan(
    top: int,
    background: string,
    text1: TextBlock,
    text2: Option<TextBlock>,
    textHeight: int,
    sprite1: SpritePlacement,
    sprite2: Option<SpritePlacement>,
    border: seq<Point>)

  /** The finished strip: its size, its panels top to bottom, and the speaker-to-sprite map used. */
  datatype Strip = Strip(width: int, height: int, panels: seq<PanelPlan>, characters: map<string, string>)

  /** The closed outline drawn one pixel inside the panel's edge. */
  const Border: seq<Point> :=
    [Point(0, 0), Point(0, PanelHeight - 1), Point(PanelWidth - 1, PanelHeight - 1), Point(PanelWidth - 1, 0), Point(0, 0)]

  /** Height taken by the text: the first block plus a gap, and the second block plus gaps only if it has height. */
  function TextHeight(st1h: nat, st2h: nat): int {
    if st2h > 0 then st1h + Margin + st2h + Margin + 5 else st1h + Margin
  }

  /**
   * `_fit_img(Image.open(path), 2*panel_width/5.0-10, max_ch_height)` for
   * the sprite at `path`: a degenerate image divides by zero, a negative
   * room cannot be resized to, and neither can a fitted size that truncates
   * to zero on either side, as it does when there is no room at all.
   */
  function FitSprite(path: string, spriteSize: string -> Size, maxChHeight: int): (r: Result<Size, ComicError>)
    ensures r.Ok? ==> 0 < r.value.w && r.value.w as real <= SpriteWidth && 0 < r.value.h <= maxChHeight
    ensures spriteSize(path).w == 0 || spriteSize(path).h == 0 ==> r == Err(ZeroSizedSprite(path))
    ensures spriteSize(path).w > 0 && spriteSize(path).h > 0 && maxChHeight < 0 ==> r == Err(SpriteRoomNegative)
    ensures spriteSize(path).w > 0 && spriteSize(path).h > 0 && maxChHeight >= 0 && r.Err? ==> r == Err(EmptyResize(path))
    ensures spriteSize(path).w > 0 && spriteSize(path).h > 0 && maxChHeight == 0 ==> r == Err(EmptyResize(path))
  {
    var img := spriteSize(path);
    if img.w == 0 || img.h == 0 then Err(ZeroSizedSprite(path))
    else if maxChHeight < 0 then Err(SpriteRoomNegative)
    else
      var size := FitImg(img, SpriteWidth, maxChHeight as real).value;
      if size.w == 0 || size.h == 0 then Err(EmptyResize(path)) else Ok(size)
  }

  /** The text of a panel (lines 122-133): both wrapped blocks and the height they take up. */
  datatype PanelText = PanelText(text1: TextBlock, text2: Option<TextBlock>, textHeight: int)

  /** The sprites of a panel: the first speaker's on the left, the second's mirrored on the right. */
  datatype PanelSprites = PanelSprites(sprite1: SpritePlacement, sprite2: Option<SpritePlacement>)

  /** Lines 122-131: wrap the first text, and the second if the panel has two entries, and place them. */
  function LayOutText(panel: Panel, m: Measure): (r: PanelText)
    requires |panel| > 0
  {
    var w1 := Wrap(panel[0].text, m, TextWidth);
    if |panel| == 2 then PlaceTexts(w1, Some(Wrap(panel[1].text, m, TextWidth)), m)
    else PlaceTexts(w1, None, m)
  }

  /**
   * Lines 123-131 after wrapping: the first block is drawn from the
   * margins, the second (if any) right-aligned below it.
   */
  function PlaceTexts(w1: Wrapped, w2: Option<Wrapped>, m: Measure): (r: PanelText) {
    var text1 := TextBlock(w1, RenderText(w1.lines, m, Point(Margin, Margin)));
    match w2
    case None => PanelText(text1, None, TextHeight(w1.height, 0))
    case Some(w) =>
      var text2 := TextBlock(w, RenderText(w.lines, m, Point(PanelWidth - Margin - w.width, w1.height + Margin)));
      PanelText(text1, Some(text2), TextHeight(w1.height, w.height))
  }

  /** Lines 133-143: look up, fit and place the sprites below the text. */
  function PlaceSprites(panel: Panel, charMap: map<string, string>, spriteSize: string -> Size,
                        maxChHeight: int): (r: Result<PanelSprites, ComicError>)
    requires |panel| > 0
    ensures r.Ok? ==> panel[0].speaker in charMap && (|panel| == 2 ==> panel[1].speaker in charMap)
    ensures panel[0].speaker !in charMap ==> r == Err(MissingSprite(panel[0].speaker))
  {
    if panel[0].speaker !in charMap then Err(MissingSprite(panel[0].speaker))
    else
      var path1 := charMap[panel[0].speaker];
      var size1 :- FitSprite(path1, spriteSize, maxChHeight);
      var sprite1 := SpritePlacement(path1, Point(Margin, PanelHeight - size1.h), size1, false);
      if |panel| == 2 then
        if panel[1].speaker !in charMap then Err(MissingSprite(panel[1].speaker))
        else
          var path2 := charMap[panel[1].speaker];
          var size2 :- FitSprite(path2, spriteSize, maxChHeight);
          Ok(PanelSprites(sprite1, Some(SpritePlacement(path2, Point(PanelWidth - size2.w - Margin, PanelHeight - size2.h), size2, true))))
      else
        Ok(PanelSprites(sprite1, None))
  }

  /**
   * The first block is drawn line by line at the left margin, from the top
   * margin down, and ends above the text height that the sprites are kept
   * under; there is a second block exactly when a second text was wrapped.
   */
  lemma TextGeometry(w1: Wrapped, w2: Option<Wrapped>, m: Measure)
    requires Boxed(w1, m)
    ensures var t := PlaceTexts(w1, w2, m);
      var top2 := Margin + w1.height;
      && t.text1.wrapped == w1
      && |t.text1.drawn| == |w1.lines|
      && (forall k :: 0 <= k < |t.text1.drawn| ==>
            && t.text1.drawn[k].text == w1.lines[k]
            && t.text1.drawn[k].at.x == Margin
            && Margin <= t.text1.drawn[k].at.y
            && t.text1.drawn[k].at.y + m(t.text1.drawn[k].text).h <= top2)
      && (t.text1.drawn != [] ==> t.text1.drawn[0].at.y == Margin)
      && top2 <= t.textHeight
      && (t.text2.Some? <==> w2.Some?)
  {
    BlockGeometry(w1, m, Point(Margin, Margin));
    RenderTextSpec(w1.lines, m, Point(Margin, Margin));
    assert w1.lines[..0] == [];
  }

  /**
   * The second block is aligned to the right margin, its widest line
   * exactly there, and every line starts at the same x; its first line is
   * drawn at `st1h + 10`, where the first block ends, and it ends above the
   * text height.
   */
  lemma SecondTextGeometry(w1: Wrapped, w2: Wrapped, m: Measure)
    requires Boxed(w2, m)
    ensures var t := PlaceTexts(w1, Some(w2), m);
      var b := t.text2.value;
      && b.wrapped == w2
      && |b.drawn| == |w2.lines|
      && (forall k :: 0 <= k < |b.drawn| ==>
            && b.drawn[k].text == w2.lines[k]
            && b.drawn[k].at.x == PanelWidth - Margin - w2.width
            && b.drawn[k].at.x + m(b.drawn[k].text).w <= PanelWidth - Margin
            && Margin + w1.height <= b.drawn[k].at.y
            && b.drawn[k].at.y + m(b.drawn[k].text).h <= t.textHeight)
      && (b.drawn != [] ==> b.drawn[0].at.y == w1.height + Margin)
      && (b.drawn != [] ==> exists k :: 0 <= k < |b.drawn| && b.drawn[k].at.x + m(b.drawn[k].text).w == PanelWidth - Margin)
  {
    var pos := Point(PanelWidth - Margin - w2.width, w1.height + Margin);
    BlockGeometry(w2, m, pos);
    RenderTextSpec(w2.lines, m, pos);
    assert w2.lines[..0] == [];
  }

  /**
   * The blocks of a panel hold the words of its entries in order, and the
   * second block is there exactly for a two-entry panel.
   */
  lemma TextWords(panel: Panel, m: Measure)
    requires |panel| > 0
    ensures var t := LayOutText(panel, m);
      && SplitAll(t.text1.wrapped.lines) == Split(panel[0].text)
      && (t.text2.Some? <==> |panel| == 2)
      && (t.text2.Some? ==> SplitAll(t.text2.value.wrapped.lines) == Split(panel[1].text))
  {
    WrapSpec(panel[0].text, m, TextWidth);
    if |panel| == 2 {
      WrapSpec(panel[1].text, m, TextWidth);
    }
  }

  /**
   * Lines 133-143: the first sprite stands on the bottom edge at the left
   * margin, the second, mirrored, on the bottom edge at the right margin;
   * both are no taller than the room left under the text, and the first
   * ends to the left of where the second begins.
   */
  lemma SpritePlacementSpec(panel: Panel, charMap: map<string, string>, spriteSize: string -> Size,
                            maxChHeight: int)
    requires |panel| > 0
    ensures var r := PlaceSprites(panel, charMap, spriteSize, maxChHeight);
      r.Ok? ==>
        var s1 := r.value.sprite1;
        && s1.path == charMap[panel[0].speaker] && !s1.mirrored
        && s1.at.x == Margin && s1.at.y + s1.size.h == PanelHeight
        && s1.size.w as real <= SpriteWidth
        && PanelHeight - maxChHeight <= s1.at.y
        && (r.value.sprite2.Some? <==> |panel| == 2)
        && (r.value.sprite2.Some? ==>
              var s2 := r.value.sprite2.value;
              && s2.path == charMap[panel[1].speaker] && s2.mirrored
              && s2.at.x + s2.size.w == PanelWidth - Margin && s2.at.y + s2.size.h == PanelHeight
              && PanelHeight - maxChHeight <= s2.at.y
              && s1.at.x + s1.size.w < s2.at.x)
  {
  }

  /**
   * Placing the sprites fails only for one of the (at most two) speakers
   * of the panel: a speaker without a sprite, a speaker whose sprite file
   * has a zero dimension, or a speaker whose fitted sprite truncates to zero
   * on a side; or when the text left negative room.
   */
  lemma SpriteErrors(panel: Panel, charMap: map<string, string>, spriteSize: string -> Size,
                     maxChHeight: int)
    requires |panel| > 0
    ensures var r := PlaceSprites(panel, charMap, spriteSize, maxChHeight);
      r.Err? ==>
        || (exists t :: 0 <= t < |panel| && t < 2 && panel[t].speaker !in charMap && r.error == MissingSprite(panel[t].speaker))
        || (exists t :: 0 <= t < |panel| && t < 2 && panel[t].speaker in charMap
                          && r.error == ZeroSizedSprite(charMap[panel[t].speaker])
                          && (spriteSize(charMap[panel[t].speaker]).w == 0 || spriteSize(charMap[panel[t].speaker]).h == 0))
        || (r.error == SpriteRoomNegative && maxChHeight < 0)
        || (exists t :: 0 <= t < |panel| && t < 2 && panel[t].speaker in charMap
                          && r.error == EmptyResize(charMap[panel[t].speaker]) && 0 <= maxChHeight)
  {
  }

  /** The body of the panel loop (lines 118-147) for the panel with index `i`. */
  function PlanPanel(panel: Panel, i: nat, charMap: map<string, string>, m: Measure,
                     spriteSize: string -> Size, background: string): (r: Result<PanelPlan, ComicError>)
    ensures r.Ok? ==> |panel| > 0 && panel[0].speaker in charMap && r.value.top == PanelHeight * i
    ensures r.Ok? && |panel| == 2 ==> panel[1].speaker in charMap
    ensures |panel| == 0 ==> r == Err(EmptyPanel)
    ensures panel != [] && panel[0].speaker !in charMap ==> r == Err(MissingSprite(panel[0].speaker))
  {
    if |panel| == 0 then Err(EmptyPanel)
    else
      var text := LayOutText(panel, m);
      var sprites :- PlaceSprites(panel, charMap, spriteSize, PanelHeight - text.textHeight);
      Ok(PanelPlan(PanelHeight * i, background, text.text1, text.text2, text.textHeight,
                   sprites.sprite1, sprites.sprite2, Border))
  }

  /**
   * A loop that applies `f` to each element with its index, starting at
   * `i`, and is aborted by the first exception.
   */
  function PlanEach<A, B, E>(xs: seq<A>, i: nat, f: (A, nat) -> Result<B, E>): (r: Result<seq<B>, E>)
    ensures r.Ok? ==> |r.value| == |xs|
    decreases |xs|
  {
    if xs == [] then Ok([])
    else
      var y :- f(xs[0], i);
      var ys :- PlanEach(xs[1..], i + 1, f);
      Ok([y] + ys)
  }

  /** The loop finishes exactly when no element fails, and then result `k` is `f`'s result for element `k`. */
  lemma {:induction false} PlanEachOk<A, B, E>(xs: seq<A>, i: nat, f: (A, nat) -> Result<B, E>)
    ensures PlanEach(xs, i, f).Ok? <==> forall k :: 0 <= k < |xs| ==> f(xs[k], i + k).Ok?
    ensures PlanEach(xs, i, f).Ok? ==> forall k :: 0 <= k < |xs| ==> f(xs[k], i + k) == Ok(PlanEach(xs, i, f).value[k])
    decreases |xs|
  {
    if xs != [] {
      PlanEachOk(xs[1..], i + 1, f);
      assert forall k :: 1 <= k < |xs| ==> xs[k] == xs[1..][k - 1] && i + k == (i + 1) + (k - 1);
    }
  }

  /** Element `k` is the first whose step fails, and it fails with `e`. */
  ghost predicate FailsFirstAt<A, B, E>(xs: seq<A>, i: nat, f: (A, nat) -> Result<B, E>, k: int, e: E) {
    && 0 <= k < |xs|
    && (forall j :: 0 <= j < k ==> f(xs[j], i + j).Ok?)
    && f(xs[k], i + k) == Err(e)
  }

  /** A failed loop reports the error of the first element that fails. */
  lemma {:induction false} PlanEachErr<A, B, E>(xs: seq<A>, i: nat, f: (A, nat) -> Result<B, E>)
    ensures var r := PlanEach(xs, i, f);
      r.Err? ==> exists k :: FailsFirstAt(xs, i, f, k, r.error)
    decreases |xs|
  {
    if xs != [] {
      var r := PlanEach(xs, i, f);
      if f(xs[0], i).Err? {
        assert FailsFirstAt(xs, i, f, 0, r.error);
      } else if r.Err? {
        var rest := PlanEach(xs[1..], i + 1, f);
        assert rest.Err? && rest.error == r.error;
        PlanEachErr(xs[1..], i + 1, f);
        var k :| FailsFirstAt(xs[1..], i + 1, f, k, rest.error);
        FailsFirstShift(xs, i, f, k, rest.error);
      }
    }
  }

  /** A first failure in the rest of the loop is a first failure of the whole loop when element 0 succeeds. */
  lemma FailsFirstShift<A, B, E>(xs: seq<A>, i: nat, f: (A, nat) -> Result<B, E>, k: int, e: E)
    requires xs != [] && f(xs[0], i).Ok? && FailsFirstAt(xs[1..], i + 1, f, k, e)
    ensures FailsFirstAt(xs, i, f, k + 1, e)
  {
    forall j | 0 <= j < k + 1
      ensures f(xs[j], i + j).Ok?
    {
      if j > 0 {
        assert xs[j] == xs[1..][j - 1];
      }
    }
    assert xs[k + 1] == xs[1..][k];
  }

  /** Whatever holds of every successful step holds of every element of a finished loop. */
  lemma PlanEachAll<A, B, E>(xs: seq<A>, i: nat, f: (A, nat) -> Result<B, E>, P: (A, nat, B) -> bool)
    requires forall x, k :: f(x, k).Ok? ==> P(x, k, f(x, k).value)
    ensures var r := PlanEach(xs, i, f);
      r.Ok? ==> forall k :: 0 <= k < |xs| ==> P(xs[k], i + k, r.value[k])
  {
    PlanEachOk(xs, i, f);
  }

  /** The body of the panel loop with everything but the panel and its index fixed. */
  function Planner(charMap: map<string, string>, m: Measure, spriteSize: string -> Size,
                   background: string): (Panel, nat) -> Result<PanelPlan, ComicError>
  {
    (p: Panel, k: nat) => PlanPanel(p, k, charMap, m, spriteSize, background)
  }

  /** The panel loop of lines 117-147: panel `k` is planned with index `k`. */
  function PlanPanels(panels: seq<Panel>, charMap: map<string, string>, m: Measure,
                      spriteSize: string -> Size, background: string): Result<seq<PanelPlan>, ComicError>
  {
    PlanEach(panels, 0, Planner(charMap, m, spriteSize, background))
  }

  /**
   * `make_comic(msgs)`. The shuffled sprite and background lists and the
   * iteration order of the `characters` set are parameters; `m` stands for
   * the font metrics and `spriteSize` for the sizes of the sprite files.
   */
  function MakeComic(msgs: seq<Message>, speakerOrder: seq<string>, charPaths: seq<string>,
                     bgPaths: seq<string>, m: Measure, spriteSize: string -> Size): Result<Strip, ComicError>
    requires Enumerates(speakerOrder, SelectExcerpt(msgs).characters)
  {
    var excerpt := SelectExcerpt(msgs);
    var panels := GenPanelText(excerpt.messages);
    var charMap := CharMap(speakerOrder, charPaths);
    if bgPaths == [] then Err(NoBackground)
    else
      var plans :- PlanPanels(panels, charMap, m, spriteSize, bgPaths[0]);
      Ok(Strip(PanelWidth, PanelHeight * |panels|, plans, charMap))
  }

  /**
   * What a plan of panel `i` draws: it is pasted at height `300*i` over the
   * background, its text is the panel's entries laid out as lines 123-131
   * of ComicGenerator.py do, the sprite of each speaker is the one the map
   * gives, and the text stays above the sprites.
   */
  predicate PanelDrawn(panel: Panel, i: nat, p: PanelPlan, charMap: map<string, string>, m: Measure,
                       background: string) {
    && p.top == PanelHeight * i
    && p.background == background
    && 0 < |panel|
    && p.text1 == LayOutText(panel, m).text1
    && p.text2 == LayOutText(panel, m).text2
    && p.textHeight == LayOutText(panel, m).textHeight
    && panel[0].speaker in charMap && p.sprite1.path == charMap[panel[0].speaker]
    && (p.sprite2.Some? <==> |panel| == 2)
    && (|panel| == 2 ==> panel[1].speaker in charMap && p.sprite2.value.path == charMap[panel[1].speaker])
    && TextAboveSprites(p, m)
  }

  /**
   * The layout of a plan: every text line ends above the text height, both
   * sprites stand on the bottom edge below it, the first against the left
   * margin and the second against the right margin, and they do not overlap.
   */
  predicate TextAboveSprites(p: PanelPlan, m: Measure) {
    && (forall k :: 0 <= k < |p.text1.drawn| ==> p.text1.drawn[k].at.y + m(p.text1.drawn[k].text).h <= p.textHeight)
    && (p.text2.Some? ==>
          forall k :: 0 <= k < |p.text2.value.drawn| ==> p.text2.value.drawn[k].at.y + m(p.text2.value.drawn[k].text).h <= p.textHeight)
    && p.textHeight <= p.sprite1.at.y && p.sprite1.at.y + p.sprite1.size.h == PanelHeight
    && p.sprite1.at.x == Margin && !p.sprite1.mirrored
    && (p.sprite2.Some? ==>
          && p.textHeight <= p.sprite2.value.at.y && p.sprite2.value.at.y + p.sprite2.value.size.h == PanelHeight
          && p.sprite2.value.at.x + p.sprite2.value.size.w == PanelWidth - Margin && p.sprite2.value.mirrored
          && p.sprite1.at.x + p.sprite1.size.w < p.sprite2.value.at.x)
  }

  /** The text of a panel ends above its text height, and there is a second block exactly for two entries. */
  lemma TextEndsAbove(panel: Panel, m: Measure)
    requires |panel| > 0
    ensures var t := LayOutText(panel, m);
      && (forall k :: 0 <= k < |t.text1.drawn| ==> t.text1.drawn[k].at.y + m(t.text1.drawn[k].text).h <= t.textHeight)
      && (t.text2.Some? <==> |panel| == 2)
      && (t.text2.Some? ==>
            forall k :: 0 <= k < |t.text2.value.drawn| ==> t.text2.value.drawn[k].at.y + m(t.text2.value.drawn[k].text).h <= t.textHeight)
  {
    var w1 := Wrap(panel[0].text, m, TextWidth);
    WrapSpec(panel[0].text, m, TextWidth);
    if |panel| == 2 {
      var w2 := Wrap(panel[1].text, m, TextWidth);
      WrapSpec(panel[1].text, m, TextWidth);
      TextGeometry(w1, Some(w2), m);
      SecondTextGeometry(w1, w2, m);
    } else {
      TextGeometry(w1, None, m);
    }
  }

  /** Every plan the loop body produces draws its panel as described. */
  lemma PanelIsDrawn(panel: Panel, i: nat, charMap: map<string, string>, m: Measure,
                     spriteSize: string -> Size, background: string)
    ensures var r := PlanPanel(panel, i, charMap, m, spriteSize, background);
      r.Ok? ==> PanelDrawn(panel, i, r.value, charMap, m, background)
  {
    if |panel| > 0 {
      var text := LayOutText(panel, m);
      TextEndsAbove(panel, m);
      SpritePlacementSpec(panel, charMap, spriteSize, PanelHeight - text.textHeight);
    }
  }

  /** Each plan of a finished panel loop draws the panel of the same index. */
  lemma PlanPanelsDrawn(panels: seq<Panel>, charMap: map<string, string>, m: Measure,
                        spriteSize: string -> Size, background: string)
    ensures var r := PlanPanels(panels, charMap, m, spriteSize, background);
      r.Ok? ==>
        && |r.value| == |panels|
        && forall k :: 0 <= k < |panels| ==> PanelDrawn(panels[k], k, r.value[k], charMap, m, background)
  {
    var f := Planner(charMap, m, spriteSize, background);
    var P := (x: Panel, k: nat, p: PanelPlan) => PanelDrawn(x, k, p, charMap, m, background);
    forall x, k | f(x, k).Ok?
      ensures P(x, k, f(x, k).value)
    {
      PanelIsDrawn(x, k, charMap, m, spriteSize, background);
    }
    PlanEachAll(panels, 0, f, P);
  }

  /**
   * A finished strip is 450 pixels wide and 300 pixels high per panel, has
   * one panel per group of the excerpt, and pastes the plan of group `k`
   * at height `300*k`.
   */
  lemma ComicStrip(msgs: seq<Message>, speakerOrder: seq<string>, charPaths: seq<string>,
                   bgPaths: seq<string>, m: Measure, spriteSize: string -> Size)
    requires Enumerates(speakerOrder, SelectExcerpt(msgs).characters)
    ensures var r := MakeComic(msgs, speakerOrder, charPaths, bgPaths, m, spriteSize);
      var panels := GenPanelText(SelectExcerpt(msgs).messages);
      r.Ok? ==>
        && bgPaths != []
        && r.value.width == PanelWidth
        && |r.value.panels| == |panels|
        && r.value.height == PanelHeight * |panels|
        && r.value.characters == CharMap(speakerOrder, charPaths)
        && (forall k :: 0 <= k < |panels| ==>
              PanelDrawn(panels[k], k, r.value.panels[k], r.value.characters, m, bgPaths[0]))
  {
    if bgPaths != [] {
      var panels := GenPanelText(SelectExcerpt(msgs).messages);
      var charMap := CharMap(speakerOrder, charPaths);
      PlanPanelsDrawn(panels, charMap, m, spriteSize, bgPaths[0]);
    }
  }

  /**
   * The text a panel's plan draws: the first entry's words from the
   * margins (10, 10) down, and the second entry's words right-aligned at
   * x = 440 - width, starting right below the first block.
   */
  lemma PanelTextPlaced(panel: Panel, m: Measure)
    requires |panel| > 0
    ensures var t := LayOutText(panel, m);
      && SplitAll(t.text1.wrapped.lines) == Split(panel[0].text)
      && (forall k :: 0 <= k < |t.text1.drawn| ==>
            t.text1.drawn[k].text == t.text1.wrapped.lines[k] && t.text1.drawn[k].at.x == Margin)
      && (t.text1.drawn != [] ==> t.text1.drawn[0].at.y == Margin)
      && (t.text2.Some? <==> |panel| == 2)
      && (t.text2.Some? ==>
            var b := t.text2.value;
            && SplitAll(b.wrapped.lines) == Split(panel[1].text)
            && (forall k :: 0 <= k < |b.drawn| ==>
                  b.drawn[k].text == b.wrapped.lines[k] && b.drawn[k].at.x == PanelWidth - Margin - b.wrapped.width)
            && (b.drawn != [] ==> b.drawn[0].at.y == t.text1.wrapped.height + Margin))
  {
    var w1 := Wrap(panel[0].text, m, TextWidth);
    TextWords(panel, m);
    WrapSpec(panel[0].text, m, TextWidth);
    if |panel| == 2 {
      var w2 := Wrap(panel[1].text, m, TextWidth);
      WrapSpec(panel[1].text, m, TextWidth);
      TextGeometry(w1, Some(w2), m);
      SecondTextGeometry(w1, w2, m);
    } else {
      TextGeometry(w1, None, m);
    }
  }

  /**
   * The text a plan draws for its panel: the words of the first entry,
   * anchored at (10, 10), and, exactly for two entries, the words of the
   * second, anchored at (440 - width, first block's height + 10).
   */
  predicate TextPlaced(panel: Panel, p: PanelPlan) {
    && |panel| > 0
    && SplitAll(p.text1.wrapped.lines) == Split(panel[0].text)
    && (p.text1.drawn != [] ==> p.text1.drawn[0].at == Point(Margin, Margin))
    && (p.text2.Some? <==> |panel| == 2)
    && (p.text2.Some? ==>
          && SplitAll(p.text2.value.wrapped.lines) == Split(panel[1].text)
          && (p.text2.value.drawn != [] ==>
                p.text2.value.drawn[0].at
                  == Point(PanelWidth - Margin - p.text2.value.wrapped.width, p.text1.wrapped.height + Margin)))
  }

  /** Panel `k` of a finished strip draws the words of the entries of group `k`, at the text anchors. */
  lemma ComicText(msgs: seq<Message>, speakerOrder: seq<string>, charPaths: seq<string>,
                  bgPaths: seq<string>, m: Measure, spriteSize: string -> Size)
    requires Enumerates(speakerOrder, SelectExcerpt(msgs).characters)
    ensures var r := MakeComic(msgs, speakerOrder, charPaths, bgPaths, m, spriteSize);
      var panels := GenPanelText(SelectExcerpt(msgs).messages);
      r.Ok? ==> |r.value.panels| == |panels| && forall k :: 0 <= k < |panels| ==> TextPlaced(panels[k], r.value.panels[k])
  {
    var r := MakeComic(msgs, speakerOrder, charPaths, bgPaths, m, spriteSize);
    var panels := GenPanelText(SelectExcerpt(msgs).messages);
    ComicStrip(msgs, speakerOrder, charPaths, bgPaths, m, spriteSize);
    if r.Ok? {
      forall k | 0 <= k < |panels|
        ensures TextPlaced(panels[k], r.value.panels[k])
      {
        PlanTextPlaced(panels[k], k, r.value.panels[k], r.value.characters, m, bgPaths[0]);
      }
    }
  }

  /** The text facts of `PanelTextPlaced`, read off a plan that draws its panel. */
  lemma PlanTextPlaced(panel: Panel, i: nat, p: PanelPlan, charMap: map<string, string>, m: Measure,
                       background: string)
    requires PanelDrawn(panel, i, p, charMap, m, background)
    ensures TextPlaced(panel, p)
  {
    PanelTextPlaced(panel, m);
  }

  /** When every group of the messages `ms` is drawn, every sender of `ms` has a sprite in the map. */
  lemma {:induction false} DrawnSpeakersMapped(ms: seq<Message>, panels: seq<Panel>, plans: seq<PanelPlan>,
                                               charMap: map<string, string>, m: Measure, background: string)
    requires Flatten(panels) == Entries(ms)
    requires forall k :: 0 <= k < |panels| ==> |panels[k]| <= 2
    requires |plans| == |panels|
    requires forall k :: 0 <= k < |plans| ==> PanelDrawn(panels[k], k, plans[k], charMap, m, background)
    ensures forall s :: s in Senders(ms) ==> s in charMap
  {
    forall s | s in Senders(ms)
      ensures s in charMap
    {
      var j :| 0 <= j < |ms| && ms[j].sender == s;
      EntriesIndex(ms, j);
      var e := EntryOf(ms[j]);
      assert e in Flatten(panels);
      FlattenMember(panels, e);
      var k, t :| 0 <= k < |panels| && 0 <= t < |panels[k]| && panels[k][t] == e;
      DrawnSpeakerMapped(panels[k], k, plans[k], charMap, m, background, t);
    }
  }

  /** Both speakers of a drawn panel have a sprite. */
  lemma DrawnSpeakerMapped(panel: Panel, i: nat, p: PanelPlan, charMap: map<string, string>, m: Measure,
                           background: string, t: int)
    requires PanelDrawn(panel, i, p, charMap, m, background) && |panel| <= 2 && 0 <= t < |panel|
    ensures panel[t].speaker in charMap
  {
  }

  /**
   * A strip is only finished when every speaker of the excerpt has a
   * sprite: the map covers all of them, so there were at least as many
   * sprite files as speakers.
   */
  lemma ComicSpritesSuffice(msgs: seq<Message>, speakerOrder: seq<string>, charPaths: seq<string>,
                            bgPaths: seq<string>, m: Measure, spriteSize: string -> Size)
    requires Enumerates(speakerOrder, SelectExcerpt(msgs).characters)
    ensures var r := MakeComic(msgs, speakerOrder, charPaths, bgPaths, m, spriteSize);
      var characters := SelectExcerpt(msgs).characters;
      r.Ok? ==>
        && (forall s :: s in characters ==> s in r.value.characters)
        && |characters| <= |charPaths|
  {
    var r := MakeComic(msgs, speakerOrder, charPaths, bgPaths, m, spriteSize);
    if r.Ok? {
      var excerpt := SelectExcerpt(msgs);
      var charMap := CharMap(speakerOrder, charPaths);
      ComicStrip(msgs, speakerOrder, charPaths, bgPaths, m, spriteSize);
      var panels := GenPanelText(excerpt.messages);
      assert forall k :: 0 <= k < |panels| ==> WellFormed(panels[k]);
      DrawnSpeakersMapped(excerpt.messages, panels, r.value.panels, charMap, m, bgPaths[0]);
      CharMapCovers(speakerOrder, excerpt.characters, charPaths);
    }
  }

  /**
   * The sprite map of a finished strip pairs exactly the speakers of the
   * excerpt with sprite files from the list, and no two speakers share a
   * file when the list has no repeats.
   */
  lemma ComicSpriteMap(msgs: seq<Message>, speakerOrder: seq<string>, charPaths: seq<string>,
                       bgPaths: seq<string>, m: Measure, spriteSize: string -> Size)
    requires Enumerates(speakerOrder, SelectExcerpt(msgs).characters)
    ensures var r := MakeComic(msgs, speakerOrder, charPaths, bgPaths, m, spriteSize);
      var characters := SelectExcerpt(msgs).characters;
      r.Ok? ==>
        && r.value.characters.Keys == characters
        && (forall s :: s in r.value.characters ==> r.value.characters[s] in charPaths)
        && (Distinct(charPaths) ==>
              forall s, t :: s in r.value.characters && t in r.value.characters && s != t ==>
                r.value.characters[s] != r.value.characters[t])
  {
    var r := MakeComic(msgs, speakerOrder, charPaths, bgPaths, m, spriteSize);
    if r.Ok? {
      ComicSpritesSuffice(msgs, speakerOrder, charPaths, bgPaths, m, spriteSize);
      ComicStrip(msgs, speakerOrder, charPaths, bgPaths, m, spriteSize);
      CharMapOnto(speakerOrder, SelectExcerpt(msgs).characters, charPaths);
    }
  }

  /** A failed panel loop reports the error of the first panel that cannot be planned. */
  lemma PlanPanelsFirstError(panels: seq<Panel>, charMap: map<string, string>, m: Measure,
                             spriteSize: string -> Size, background: string)
    ensures var r := PlanPanels(panels, charMap, m, spriteSize, background);
      r.Err? ==>
        exists k :: && 0 <= k < |panels|
                    && (forall j :: 0 <= j < k ==> PlanPanel(panels[j], j, charMap, m, spriteSize, background).Ok?)
                    && PlanPanel(panels[k], k, charMap, m, spriteSize, background) == Err(r.error)
  {
    PlanEachErr(panels, 0, Planner(charMap, m, spriteSize, background));
  }

  /** Without messages the excerpt is empty and its single group has no entries. */
  lemma NoMessagesOneEmptyPanel(msgs: seq<Message>)
    requires msgs == []
    ensures GenPanelText(SelectExcerpt(msgs).messages) == [[]]
  {
    ExcerptKeepsNewest(msgs);
  }

  /**
   * `make_comic` raises when there is no background, when there are no
   * messages (the one empty group has no `panel[0]`), and otherwise with the
   * error of the first group whose panel cannot be drawn.
   */
  lemma ComicFailures(msgs: seq<Message>, speakerOrder: seq<string>, charPaths: seq<string>,
                      bgPaths: seq<string>, m: Measure, spriteSize: string -> Size)
    requires Enumerates(speakerOrder, SelectExcerpt(msgs).characters)
    ensures var r := MakeComic(msgs, speakerOrder, charPaths, bgPaths, m, spriteSize);
      && (bgPaths == [] ==> r == Err(NoBackground))
      && (bgPaths != [] && msgs == [] ==> r == Err(EmptyPanel))
    ensures var r := MakeComic(msgs, speakerOrder, charPaths, bgPaths, m, spriteSize);
      var panels := GenPanelText(SelectExcerpt(msgs).messages);
      var charMap := CharMap(speakerOrder, charPaths);
      r.Err? && bgPaths != [] ==>
        exists k :: && 0 <= k < |panels|
                    && (forall j :: 0 <= j < k ==> PlanPanel(panels[j], j, charMap, m, spriteSize, bgPaths[0]).Ok?)
                    && PlanPanel(panels[k], k, charMap, m, spriteSize, bgPaths[0]) == Err(r.error)
  {
    if bgPaths != [] {
      var panels := GenPanelText(SelectExcerpt(msgs).messages);
      var charMap := CharMap(speakerOrder, charPaths);
      if msgs == [] {
        NoMessagesOneEmptyPanel(msgs);
      }
      PlanPanelsFirstError(panels, charMap, m, spriteSize, bgPaths[0]);
    }
  }
}

=== FILE: config.dfy ===
/**
 * `WeedBot.__init__`: resolving the loaded configuration mapping into the
 * bot's settings, with its defaults and its validation errors, in the order
 * the constructor checks them. Line numbers in the comments of this module
 * refer to `weedbot.py`.
 */
module Config {
  import opened Wrappers

  /** A configuration value as YAML loads it; other YAML types are not modelled. */
  datatype Value = Str(s: string) | Int(n: int) | Null

  /** The levels of the `logging` module that a configuration may name. */
  datatype LogLevel = Debug | Info | Warning | Error | Critical

  /** Why the constructor raises. */
  datatype ConfigError =
    | InvalidConfig(message: string) // `InvalidConfigError(message)`
    | TypeError                      // `str + value` with a value that is not a string

  /** The settings the constructor stores or uses. */
  datatype Settings = Settings(
    logLevel: LogLevel,
    room: Value,
    key: Value,
    logPath: Value,
    expireHours: Value,
    dbPath: Value,
    nick: Value,
    password: Value)

  const DefaultLogLevel: string := "warning"
  const DefaultExpireHours: int := 24
  const DefaultDbPath: string := "weedbot.db"
  const DefaultNick: string := "WeedBot"

  /** The lower-case name of a level, as the `logging` module's level names are spelt in the configuration. */
  function LevelName(l: LogLevel): (name: string)
    ensures name in ["debug", "info", "warning", "error", "critical"]
  {
    match l
    case Debug => "debug"
    case Info => "info"
    case Warning => "warning"
    case Error => "error"
    case Critical => "critical"
  }

  /**
   * The level a recognised level name stands for: exactly the five names
   * are recognised, and each stands for the level it names.
   */
  function LevelNamed(name: string): (r: Option<LogLevel>)
    ensures r.Some? <==> name in ["debug", "info", "warning", "error", "critical"]
    ensures r.Some? ==> LevelName(r.value) == name
  {
    if name == "debug" then Some(Debug)
    else if name == "info" then Some(Info)
    else if name == "error" then Some(Error)
    else if name == "critical" then Some(Critical)
    else if name == "warning" then Some(Warning)
    else None
  }

  /** Every level is recognised under its own name. */
  lemma LevelNameRoundTrip(l: LogLevel)
    ensures LevelNamed(LevelName(l)) == Some(l)
  {
  }

  /**
   * Lines 34-50: a missing level is "warning"; an unknown string raises
   * `InvalidConfigError("Invalid logging level: " + s)`, and a value that is
   * not a string compares unequal to every name and then breaks the
   * concatenation of that message.
   */
  function ResolveLogLevel(cfg: map<string, Value>): (r: Result<LogLevel, ConfigError>)
    ensures "log_level" !in cfg ==> r == Ok(Warning)
    ensures "log_level" in cfg && cfg["log_level"].Str? ==>
      (r.Ok? <==> LevelNamed(cfg["log_level"].s).Some?)
    ensures "log_level" in cfg && !cfg["log_level"].Str? ==> r == Err(TypeError)
  {
    var slog := if "log_level" in cfg then cfg["log_level"] else Str(DefaultLogLevel);
    match slog
    case Str(name) =>
      (match LevelNamed(name)
       case Some(level) => Ok(level)
       case None => Err(InvalidConfig("Invalid logging level: " + name)))
    case _ => Err(TypeError)
  }

  /** `cfg[key]`, or `default` on `KeyError`. */
  function GetOr(cfg: map<string, Value>, key: string, default: Value): (v: Value)
    ensures key in cfg ==> v == cfg[key]
    ensures key !in cfg ==> v == default
  {
    if key in cfg then cfg[key] else default
  }

  /** The configurations the constructor accepts. */
  predicate Acceptable(cfg: map<string, Value>) {
    && ("log_level" in cfg ==> cfg["log_level"].Str? && LevelNamed(cfg["log_level"].s).Some?)
    && "room" in cfg
    && "api_key" in cfg
    && ("log_path" in cfg || cfg["room"].Str?)
  }

  /**
   * Lines 34-92: the log level first, then the room, the API key and the
   * log path (which defaults to the room's name plus ".log"), then the
   * remaining keys with their defaults. The constructor succeeds exactly on
   * acceptable configurations; otherwise the first failed check decides
   * the error. An accepted configuration keeps every value it gives, and
   * each missing optional key takes its default.
   */
  function Resolve(cfg: map<string, Value>): (r: Result<Settings, ConfigError>)
    ensures r.Ok? <==> Acceptable(cfg)
    ensures "log_level" in cfg && cfg["log_level"].Str? && LevelNamed(cfg["log_level"].s).None? ==>
      r == Err(InvalidConfig("Invalid logging level: " + cfg["log_level"].s))
    ensures "log_level" in cfg && !cfg["log_level"].Str? ==> r == Err(TypeError)
    ensures ResolveLogLevel(cfg).Ok? && "room" !in cfg ==> r == Err(InvalidConfig("Missing room."))
    ensures ResolveLogLevel(cfg).Ok? && "room" in cfg && "api_key" !in cfg ==>
      r == Err(InvalidConfig("Missing imgur API key."))
    ensures r.Ok? ==>
      var st := r.value;
      && st.room == cfg["room"] && st.key == cfg["api_key"]
      && ("log_level" !in cfg ==> st.logLevel == Warning)
      && ("log_level" in cfg ==> Some(st.logLevel) == LevelNamed(cfg["log_level"].s))
      && st.logPath == (if "log_path" in cfg then cfg["log_path"] else Str(cfg["room"].s + ".log"))
      && st.expireHours == (if "expire_hours" in cfg then cfg["expire_hours"] else Int(24))
      && st.dbPath == (if "db_path" in cfg then cfg["db_path"] else Str("weedbot.db"))
      && st.nick == (if "nick" in cfg then cfg["nick"] else Str("WeedBot"))
      && st.password == (if "password" in cfg then cfg["password"] else Null)
  {
    var level :- ResolveLogLevel(cfg);
    if "room" !in cfg then Err(InvalidConfig("Missing room."))
    else
      var room := cfg["room"];
      if "api_key" !in cfg then Err(InvalidConfig("Missing imgur API key."))
      else if "log_path" !in cfg && !room.Str? then Err(TypeError)
      else
        var logPath := if "log_path" in cfg then cfg["log_path"] else Str(room.s + ".log");
        Ok(Settings(level, room, cfg["api_key"], logPath,
                    GetOr(cfg, "expire_hours", Int(DefaultExpireHours)),
                    GetOr(cfg, "db_path", Str(DefaultDbPath)),
                    GetOr(cfg, "nick", Str(DefaultNick)),
                    GetOr(cfg, "password", Null)))
  }
}

=== FILE: decimal.dfy ===
/**
 * Python's `str(n)` for a non-negative integer, used to stamp packet ids,
 * and its inverse on canonical decimal strings.
 */
module Decimal {

  predicate IsDigit(c: char) {
    '0' <= c <= '9'
  }

  /** A decimal numeral as `str` writes one: digits only, and no leading zero except for "0" itself. */
  predicate Canonical(s: string) {
    && |s| > 0
    && (forall k :: 0 <= k < |s| ==> IsDigit(s[k]))
    && (s[0] == '0' ==> |s| == 1)
  }

  function DigitChar(d: nat): (c: char)
    requires d < 10
    ensures IsDigit(c) && DigitValue(c) == d
  {
    ['0', '1', '2', '3', '4', '5', '6', '7', '8', '9'][d]
  }

  function DigitValue(c: char): (d: nat)
    requires IsDigit(c)
    ensures d < 10
  {
    (c as int - '0' as int) as nat
  }

  /** `str(n)`. */
  function NatToString(n: nat): (s: string)
    ensures |s| > 0
    decreases n
  {
    if n < 10 then [DigitChar(n)] else NatToString(n / 10) + [DigitChar(n % 10)]
  }

  /** The value of a string of digits, most significant first. */
  function ParseNat(s: string): nat
    requires |s| > 0 && forall k :: 0 <= k < |s| ==> IsDigit(s[k])
    decreases |s|
  {
    if |s| == 1 then DigitValue(s[0])
    else ParseNat(s[..|s| - 1]) * 10 + DigitValue(s[|s| - 1])
  }

  /** `str(n)` is canonical, and reading it back gives `n`. */
  lemma {:induction false} NatToStringParses(n: nat)
    ensures Canonical(NatToString(n))
    ensures ParseNat(NatToString(n)) == n
    decreases n
  {
    if n >= 10 {
      NatToStringParses(n / 10);
      var s := NatToString(n);
      var p := NatToString(n / 10);
      assert s == p + [DigitChar(n % 10)];
      assert s[..|s| - 1] == p;
      assert s[0] == p[0];
      LeadingZero(p);
    }
  }

  /** Every canonical numeral is `str` of its value. */
  lemma {:induction false} ParseNatPrints(s: string)
    requires Canonical(s)
    ensures NatToString(ParseNat(s)) == s
    decreases |s|
  {
    if |s| > 1 {
      var p := s[..|s| - 1];
      assert p[0] == s[0];
      assert Canonical(p);
      ParseNatPrints(p);
      var n := ParseNat(s);
      var d := DigitValue(s[|s| - 1]);
      assert ParseNat(p) > 0 by {
        LeadingDigitPositive(p);
      }
      assert n / 10 == ParseNat(p) && n % 10 == d;
      assert DigitChar(d) == s[|s| - 1];
      assert s == p + [s[|s| - 1]];
    }
  }

  /** A canonical numeral that starts with '0' is "0". */
  lemma LeadingZero(s: string)
    requires Canonical(s)
    ensures s[0] == '0' ==> ParseNat(s) == 0
  {
  }

  /** A canonical numeral that does not start with '0' has a positive value. */
  lemma {:induction false} LeadingDigitPositive(s: string)
    requires Canonical(s) && s[0] != '0'
    ensures ParseNat(s) > 0
    decreases |s|
  {
    if |s| > 1 {
      var p := s[..|s| - 1];
      assert p[0] == s[0];
      LeadingDigitPositive(p);
    }
  }

  /** Different numbers are printed differently. */
  lemma NatToStringInjective(a: nat, b: nat)
    ensures NatToString(a) == NatToString(b) <==> a == b
  {
    NatToStringParses(a);
    NatToStringParses(b);
  }
}

=== FILE: layout.dfy ===
/**
 * Greedy word wrapping (`ComicGenerator._wrap`) and the vertical placement of
 * the wrapped lines (`ComicGenerator._render_text`). The font metrics
 * (`draw.textsize`) are an uninterpreted measure function.
 */
module Layout {
  import opened Text

  /** The pixel width and height `draw.textsize` reports for a string. */
  datatype Extent = Extent(w: nat, h: nat)

  /** Font metrics of the drawing context, for the one font used in a comic. */
  type Measure = string -> Extent

  /** The result of `_wrap`: the lines and the `(mw, mh)` bounding box. */
  datatype Wrapped = Wrapped(lines: seq<string>, width: nat, height: nat)

  /** Where one line of text is drawn. */
  datatype Point = Point(x: int, y: int)
  datatype DrawnLine = DrawnLine(at: Point, text: string)

  predicate Fits(m: Measure, width: int, line: string) {
    m(line).w <= width
  }

  /** Sum of the measured heights of `lines`. */
  function TotalHeight(lines: seq<string>, m: Measure): nat {
    if lines == [] then 0 else m(lines[0]).h + TotalHeight(lines[1..], m)
  }

  /** The words of all lines, in order. */
  function SplitAll(lines: seq<string>): seq<string> {
    if lines == [] then [] else Split(lines[0]) + SplitAll(lines[1..])
  }

  /**
   * The inner `while` of `_wrap`, entered with prefix length `s`: grow the
   * prefix while it fits and stop either on the first prefix that does not
   * fit (answering one less) or when the prefix reaches the whole remainder,
   * which is then never measured.
   */
  function FitCount(toks: seq<string>, m: Measure, width: int, s: nat): (r: nat)
    requires 1 <= s <= |toks|
    ensures s - 1 <= r <= |toks|
    ensures forall j :: s <= j < |toks| && j <= r ==> Fits(m, width, Join(toks[..j]))
    ensures r < |toks| ==> r + 1 < |toks| && !Fits(m, width, Join(toks[..r + 1]))
    decreases |toks| - s
  {
    if s < |toks| then
      if !Fits(m, width, Join(toks[..s])) then s - 1 else FitCount(toks, m, width, s + 1)
    else s
  }

  /**
   * Number of tokens `_wrap` puts on the next line: the inner loop's answer,
   * raised to 1 when even a single token does not fit.
   */
  function LineCount(toks: seq<string>, m: Measure, width: int): (n: nat)
    requires |toks| > 0
    ensures 1 <= n <= |toks|
    ensures n < |toks| ==>
              || (Fits(m, width, Join(toks[..n])) && n + 1 < |toks| && !Fits(m, width, Join(toks[..n + 1])))
              || (n == 1 && !Fits(m, width, Join(toks[..1])))
    ensures forall j :: 1 <= j < n ==> Fits(m, width, Join(toks[..j]))
  {
    var s := FitCount(toks, m, width, 1);
    if s == 0 then 1 else s
  }

  /**
   * The outer loop of `_wrap` over the remaining tokens. The running maximum
   * and sum start at 0, so folding them from the right gives the same values.
   */
  function WrapTokens(toks: seq<string>, m: Measure, width: int): Wrapped
    requires AllWords(toks)
    decreases |toks|
  {
    if toks == [] then Wrapped([], 0, 0)
    else
      var n := LineCount(toks, m, width);
      var line := Join(toks[..n]);
      var e := m(line);
      assert AllWords(toks[n..]);
      var rest := WrapTokens(toks[n..], m, width);
      Wrapped([line] + rest.lines, if e.w >= rest.width then e.w else rest.width, e.h + rest.height)
  }

  /**
   * The lines hold the tokens in order, none of them blank; the height is
   * the sum of the line heights and the width the widest line's width.
   */
  lemma {:induction false} WrapTokensSpec(toks: seq<string>, m: Measure, width: int)
    requires AllWords(toks)
    ensures var r := WrapTokens(toks, m, width);
      && SplitAll(r.lines) == toks
      && (forall k :: 0 <= k < |r.lines| ==> |r.lines[k]| > 0 && Split(r.lines[k]) != [])
      && r.height == TotalHeight(r.lines, m)
      && (forall k :: 0 <= k < |r.lines| ==> m(r.lines[k]).w <= r.width)
      && (r.lines == [] ==> r.width == 0)
      && (r.lines != [] ==> exists k :: 0 <= k < |r.lines| && m(r.lines[k]).w == r.width)
    decreases |toks|
  {
    if toks != [] {
      var r := WrapTokens(toks, m, width);
      var n := LineCount(toks, m, width);
      var line := Join(toks[..n]);
      assert AllWords(toks[n..]);
      var rest := WrapTokens(toks[n..], m, width);
      WrapTokensSpec(toks[n..], m, width);
      assert r.lines == [line] + rest.lines;
      WrapStep(toks, n, line, rest.lines, r.lines, m);
      WidthStep(m, line, rest, r);
    }
  }

  /** The facts one pass of the outer loop contributes. */
  lemma WrapStep(toks: seq<string>, n: nat, line: string, rest: seq<string>, lines: seq<string>, m: Measure)
    requires AllWords(toks) && 1 <= n <= |toks|
    requires line == Join(toks[..n]) && lines == [line] + rest
    requires SplitAll(rest) == toks[n..]
    requires forall k :: 0 <= k < |rest| ==> |rest[k]| > 0 && Split(rest[k]) != []
    ensures SplitAll(lines) == toks
    ensures forall k :: 0 <= k < |lines| ==> |lines[k]| > 0 && Split(lines[k]) != []
    ensures TotalHeight(lines, m) == m(line).h + TotalHeight(rest, m)
  {
    assert AllWords(toks[..n]);
    SplitJoin(toks[..n]);
    JoinNonEmpty(toks[..n]);
    assert lines[1..] == rest;
    assert toks[..n] + toks[n..] == toks;
  }

  lemma WidthStep(m: Measure, line: string, rest: Wrapped, r: Wrapped)
    requires r.lines == [line] + rest.lines
    requires r.width == if m(line).w >= rest.width then m(line).w else rest.width
    requires forall k :: 0 <= k < |rest.lines| ==> m(rest.lines[k]).w <= rest.width
    requires rest.lines == [] ==> rest.width == 0
    requires rest.lines != [] ==> exists k :: 0 <= k < |rest.lines| && m(rest.lines[k]).w == rest.width
    ensures forall k :: 0 <= k < |r.lines| ==> m(r.lines[k]).w <= r.width
    ensures exists k :: 0 <= k < |r.lines| && m(r.lines[k]).w == r.width
  {
    assert forall k :: 1 <= k < |r.lines| ==> r.lines[k] == rest.lines[k - 1];
    if m(line).w < rest.width {
      var k :| 0 <= k < |rest.lines| && m(rest.lines[k]).w == rest.width;
      assert r.lines[k + 1] == rest.lines[k];
    } else {
      assert r.lines[0] == line;
    }
  }

  /** `_wrap(st, font, draw, width)`. */
  function Wrap(st: string, m: Measure, width: int): Wrapped {
    WrapTokens(Split(st), m, width)
  }

  /**
   * The lines of `_wrap` hold the words of `st` in order and are never
   * blank; there are none exactly when `st` has no words, and then the box
   * is 0 by 0; otherwise the box is as high as the lines together and as
   * wide as the widest line.
   */
  lemma WrapSpec(st: string, m: Measure, width: int)
    ensures var r := Wrap(st, m, width);
      && SplitAll(r.lines) == Split(st)
      && (forall k :: 0 <= k < |r.lines| ==> |r.lines[k]| > 0)
      && (r.lines == [] <==> Split(st) == [])
      && (Split(st) == [] ==> r == Wrapped([], 0, 0))
      && r.height == TotalHeight(r.lines, m)
      && (forall k :: 0 <= k < |r.lines| ==> m(r.lines[k]).w <= r.width)
      && (r.lines != [] ==> exists k :: 0 <= k < |r.lines| && m(r.lines[k]).w == r.width)
      && Boxed(r, m)
  {
    WrapTokensSpec(Split(st), m, width);
  }

  /**
   * The box of a block of lines: as high as the lines together, and as wide
   * as the widest line.
   */
  predicate Boxed(w: Wrapped, m: Measure) {
    && w.height == TotalHeight(w.lines, m)
    && (forall k :: 0 <= k < |w.lines| ==> m(w.lines[k]).w <= w.width)
    && (w.lines != [] ==> exists k :: 0 <= k < |w.lines| && m(w.lines[k]).w == w.width)
  }

  /**
   * How a line that is not the last one ended, given the words `after` it:
   * either it fits and the next word would have made it too wide (a test
   * the inner loop only makes when that word is not the last one), or it is
   * a single word that is too wide on its own.
   */
  predicate GreedyBreak(m: Measure, width: int, line: string, after: seq<string>) {
    var ws := Split(line);
    || (Fits(m, width, line) && |after| >= 2 && !Fits(m, width, Join(ws + [after[0]])))
    || (|ws| == 1 && !Fits(m, width, line))
  }

  /**
   * Every shorter run of a line's words fits: the line was grown one word
   * at a time. Of the last line, nothing more is known, since the whole
   * line itself was never measured against the width.
   */
  predicate ProperPrefixesFit(m: Measure, width: int, line: string) {
    var ws := Split(line);
    forall j :: 1 <= j < |ws| ==> Fits(m, width, Join(ws[..j]))
  }

  /** Every line was grown word by word, and every line but the last stopped at the first word that overflowed. */
  predicate GreedyLines(lines: seq<string>, m: Measure, width: int) {
    && (forall k :: 0 <= k < |lines| - 1 ==> GreedyBreak(m, width, lines[k], SplitAll(lines[k + 1..])))
    && (forall k :: 0 <= k < |lines| ==> ProperPrefixesFit(m, width, lines[k]))
  }

  lemma {:induction false} WrapTokensIsGreedy(toks: seq<string>, m: Measure, width: int)
    requires AllWords(toks)
    ensures GreedyLines(WrapTokens(toks, m, width).lines, m, width)
    decreases |toks|
  {
    if toks != [] {
      var r := WrapTokens(toks, m, width);
      var n := LineCount(toks, m, width);
      assert AllWords(toks[..n]) && AllWords(toks[n..]);
      var rest := WrapTokens(toks[n..], m, width);
      assert r.lines == [Join(toks[..n])] + rest.lines;
      WrapTokensSpec(toks[n..], m, width);
      WrapTokensIsGreedy(toks[n..], m, width);
      LinePrefixesFit(toks, m, width, n);
      if n < |toks| {
        FirstBreakIsGreedy(toks, m, width, n, rest.lines);
        GreedyCons(r.lines, m, width);
      } else {
        assert toks[..n] == toks;
        assert rest.lines == [];
        assert r.lines == [Join(toks)];
      }
    }
  }

  /** A line followed by greedily broken lines, broken greedily from them, gives greedy lines. */
  lemma GreedyCons(lines: seq<string>, m: Measure, width: int)
    requires |lines| >= 2
    requires GreedyBreak(m, width, lines[0], SplitAll(lines[1..])) && ProperPrefixesFit(m, width, lines[0])
    requires GreedyLines(lines[1..], m, width)
    ensures GreedyLines(lines, m, width)
  {
    forall k | 1 <= k < |lines| - 1
      ensures GreedyBreak(m, width, lines[k], SplitAll(lines[k + 1..]))
    {
      assert lines[k] == lines[1..][k - 1] && lines[k + 1..] == lines[1..][k..];
    }
    forall k | 1 <= k < |lines|
      ensures ProperPrefixesFit(m, width, lines[k])
    {
      assert lines[k] == lines[1..][k - 1];
    }
  }

  lemma FirstBreakIsGreedy(toks: seq<string>, m: Measure, width: int, n: nat, rest: seq<string>)
    requires AllWords(toks) && |toks| > 0
    requires n == LineCount(toks, m, width) && n < |toks|
    requires SplitAll(rest) == toks[n..]
    ensures GreedyBreak(m, width, Join(toks[..n]), SplitAll(rest))
  {
    NextWordOverflows(toks, m, width, n);
    LineWords(toks, n);
    assert toks[n..][0] == toks[n];
  }

  lemma LineWords(toks: seq<string>, n: nat)
    requires AllWords(toks) && n <= |toks|
    ensures Split(Join(toks[..n])) == toks[..n]
  {
    assert AllWords(toks[..n]);
    SplitJoin(toks[..n]);
  }

  /** How `LineCount` ended a line that is not the last one, in terms of the next token. */
  lemma NextWordOverflows(toks: seq<string>, m: Measure, width: int, n: nat)
    requires |toks| > 0
    requires n == LineCount(toks, m, width) && n < |toks|
    ensures || (Fits(m, width, Join(toks[..n])) && n + 1 < |toks| && !Fits(m, width, Join(toks[..n] + [toks[n]])))
            || (n == 1 && !Fits(m, width, Join(toks[..n])))
  {
    assert toks[..n] + [toks[n]] == toks[..n + 1];
  }

  /** Every line `_wrap` takes was grown one fitting word at a time. */
  lemma LinePrefixesFit(toks: seq<string>, m: Measure, width: int, n: nat)
    requires AllWords(toks) && |toks| > 0
    requires n == LineCount(toks, m, width)
    ensures ProperPrefixesFit(m, width, Join(toks[..n]))
  {
    LineWords(toks, n);
    forall j | 1 <= j < n
      ensures Join(toks[..n][..j]) == Join(toks[..j])
    {
      assert toks[..n][..j] == toks[..j];
    }
  }

  /**
   * Line breaking of `_wrap`: a line other than the last one fits and could
   * not take the next word, or is one word too wide by itself; of the last
   * line only its proper prefixes are known to fit.
   */
  lemma WrapIsGreedy(st: string, m: Measure, width: int)
    ensures GreedyLines(Wrap(st, m, width).lines, m, width)
  {
    WrapTokensIsGreedy(Split(st), m, width);
  }

  /** A line as `_wrap` writes it: non-blank, its words joined by single spaces. */
  predicate SingleSpaced(line: string) {
    Split(line) != [] && line == Join(Split(line))
  }

  /** The inner loop runs to the end of the tokens when every prefix it measures fits. */
  lemma {:induction false} FitCountAll(toks: seq<string>, m: Measure, width: int, s: nat)
    requires 1 <= s <= |toks|
    requires forall j :: s <= j < |toks| ==> Fits(m, width, Join(toks[..j]))
    ensures FitCount(toks, m, width, s) == |toks|
    decreases |toks| - s
  {
    if s < |toks| {
      FitCountAll(toks, m, width, s + 1);
    }
  }

  /** The inner loop answers `n` when the prefixes up to `n` fit and the measured prefix `n + 1` does not. */
  lemma {:induction false} FitCountStops(toks: seq<string>, m: Measure, width: int, s: nat, n: nat)
    requires 1 <= s <= n + 1 && n + 1 < |toks|
    requires forall j :: s <= j <= n ==> Fits(m, width, Join(toks[..j]))
    requires !Fits(m, width, Join(toks[..n + 1]))
    ensures FitCount(toks, m, width, s) == n
    decreases n + 1 - s
  {
    if s <= n {
      FitCountStops(toks, m, width, s + 1, n);
    }
  }

  /** The prefixes of `toks` shorter than `|ws|` are those of `ws`, so they fit when those of `ws` do. */
  lemma PrefixesOfLine(toks: seq<string>, m: Measure, width: int, ws: seq<string>)
    requires |ws| <= |toks| && toks[..|ws|] == ws
    requires forall j :: 1 <= j < |ws| ==> Fits(m, width, Join(ws[..j]))
    ensures forall j :: 1 <= j < |ws| ==> Fits(m, width, Join(toks[..j]))
  {
    forall j | 1 <= j < |ws|
      ensures Fits(m, width, Join(toks[..j]))
    {
      assert toks[..j] == ws[..j];
    }
  }

  /** A line that fits and whose next word, not the last one, overflows is a break of `LineCount`. */
  lemma LineCountBreak(toks: seq<string>, m: Measure, width: int, n: nat)
    requires 1 <= n && n + 1 < |toks|
    requires forall j :: 1 <= j <= n ==> Fits(m, width, Join(toks[..j]))
    requires !Fits(m, width, Join(toks[..n + 1]))
    ensures LineCount(toks, m, width) == n
  {
    FitCountStops(toks, m, width, 1, n);
  }

  /** One pass of the outer loop: the first line takes `LineCount` tokens, and the rest are wrapped alone. */
  lemma WrapTokensCons(toks: seq<string>, m: Measure, width: int)
    requires AllWords(toks) && toks != []
    ensures var n := LineCount(toks, m, width);
      && AllWords(toks[..n]) && AllWords(toks[n..])
      && WrapTokens(toks, m, width).lines == [Join(toks[..n])] + WrapTokens(toks[n..], m, width).lines
  {
    var n := LineCount(toks, m, width);
    assert AllWords(toks[..n]) && AllWords(toks[n..]);
  }

  /** Lines after the first one still hold words. */
  lemma WordsAfterFirst(lines: seq<string>)
    requires |lines| > 1 && forall k :: 0 <= k < |lines| ==> SingleSpaced(lines[k])
    ensures SplitAll(lines[1..]) != []
  {
    assert lines[1] == lines[1..][0];
    assert SingleSpaced(lines[1]);
    assert SplitAll(lines[1..]) == Split(lines[1]) + SplitAll(lines[2..]);
  }

  /** `LineCount` takes every token when every shorter prefix fits. */
  lemma LineCountAll(toks: seq<string>, m: Measure, width: int)
    requires |toks| > 0
    requires forall j :: 1 <= j < |toks| ==> Fits(m, width, Join(toks[..j]))
    ensures LineCount(toks, m, width) == |toks|
  {
    FitCountAll(toks, m, width, 1);
  }

  /** `LineCount` takes one token when that token alone is too wide and is not the last. */
  lemma LineCountSingle(toks: seq<string>, m: Measure, width: int)
    requires |toks| > 1 && !Fits(m, width, Join(toks[..1]))
    ensures LineCount(toks, m, width) == 1
  {
  }

  /**
   * A line holding the first words of `toks`, grown word by word, and
   * either the last line or broken greedily before the words `after` it,
   * holds exactly the tokens `LineCount` takes.
   */
  lemma GreedyLineCount(toks: seq<string>, m: Measure, width: int, line: string, ws: seq<string>, after: seq<string>)
    requires toks == ws + after && |ws| >= 1 && Split(line) == ws && line == Join(ws)
    requires ProperPrefixesFit(m, width, line)
    requires after != [] ==> GreedyBreak(m, width, line, after)
    ensures LineCount(toks, m, width) == |ws|
  {
    var n := |ws|;
    assert toks[..n] == ws;
    PrefixesOfLine(toks, m, width, ws);
    if after == [] {
      assert ws == toks;
      LineCountAll(toks, m, width);
    } else if Fits(m, width, line) && |after| >= 2 && !Fits(m, width, Join(ws + [after[0]])) {
      assert ws + [after[0]] == toks[..n + 1];
      LineCountBreak(toks, m, width, n);
    } else {
      assert n == 1;
      LineCountSingle(toks, m, width);
    }
  }

  /** The first of greedy lines holding `toks` holds exactly the tokens `_wrap` puts on its first line. */
  lemma FirstLineTaken(toks: seq<string>, lines: seq<string>, m: Measure, width: int)
    requires AllWords(toks) && SplitAll(lines) == toks && lines != []
    requires forall k :: 0 <= k < |lines| ==> SingleSpaced(lines[k])
    requires GreedyLines(lines, m, width)
    ensures var n := |Split(lines[0])|;
      && 1 <= n <= |toks| && LineCount(toks, m, width) == n
      && lines[0] == Join(toks[..n]) && toks[n..] == SplitAll(lines[1..])
  {
    var ws := Split(lines[0]);
    var after := SplitAll(lines[1..]);
    assert SingleSpaced(lines[0]);
    assert SplitAll(lines) == ws + after;
    assert toks[..|ws|] == ws && toks[|ws|..] == after;
    if |lines| > 1 {
      assert GreedyBreak(m, width, lines[0], after);
    } else {
      assert after == [];
    }
    GreedyLineCount(toks, m, width, lines[0], ws, after);
  }

  /**
   * The greedy rule determines the lines: any single-spaced lines that hold
   * exactly the words `toks`, are grown word by word, and break where the
   * next word first overflows, are the lines `_wrap` produces.
   */
  lemma {:induction false} GreedyLinesUnique(toks: seq<string>, lines: seq<string>, m: Measure, width: int)
    requires AllWords(toks) && SplitAll(lines) == toks
    requires forall k :: 0 <= k < |lines| ==> SingleSpaced(lines[k])
    requires GreedyLines(lines, m, width)
    ensures lines == WrapTokens(toks, m, width).lines
    decreases |lines|
  {
    if lines != [] {
      FirstLineTaken(toks, lines, m, width);
      var n := |Split(lines[0])|;
      GreedyLinesTail(lines, m, width);
      assert forall k :: 0 <= k < |lines[1..]| ==> lines[1..][k] == lines[k + 1];
      WrapTokensCons(toks, m, width);
      GreedyLinesUnique(toks[n..], lines[1..], m, width);
      assert lines == [lines[0]] + lines[1..];
    }
  }

  lemma GreedyLinesTail(lines: seq<string>, m: Measure, width: int)
    requires lines != [] && GreedyLines(lines, m, width)
    ensures GreedyLines(lines[1..], m, width)
  {
    forall k | 0 <= k < |lines[1..]| - 1
      ensures GreedyBreak(m, width, lines[1..][k], SplitAll(lines[1..][k + 1..]))
    {
      assert lines[1..][k] == lines[k + 1] && lines[1..][k + 1..] == lines[k + 2..];
    }
    forall k | 0 <= k < |lines[1..]|
      ensures ProperPrefixesFit(m, width, lines[1..][k])
    {
      assert lines[1..][k] == lines[k + 1];
    }
  }

  /**
   * `_wrap` is the only greedy wrapping of `st`: single-spaced lines that
   * hold the words of `st` in order and satisfy the greedy rule are its
   * lines, and its own lines are such lines.
   */
  lemma WrapUnique(st: string, lines: seq<string>, m: Measure, width: int)
    ensures forall k :: 0 <= k < |Wrap(st, m, width).lines| ==> SingleSpaced(Wrap(st, m, width).lines[k])
    ensures SplitAll(lines) == Split(st) && (forall k :: 0 <= k < |lines| ==> SingleSpaced(lines[k]))
              && GreedyLines(lines, m, width) ==>
            lines == Wrap(st, m, width).lines
  {
    assert Wrap(st, m, width) == WrapTokens(Split(st), m, width);
    WrapTokensSingleSpaced(Split(st), m, width);
    if SplitAll(lines) == Split(st) && (forall k :: 0 <= k < |lines| ==> SingleSpaced(lines[k]))
       && GreedyLines(lines, m, width) {
      GreedyLinesUnique(Split(st), lines, m, width);
    }
  }

  /** Every line `_wrap` produces is its words joined by single spaces. */
  lemma {:induction false} WrapTokensSingleSpaced(toks: seq<string>, m: Measure, width: int)
    requires AllWords(toks)
    ensures var r := WrapTokens(toks, m, width);
      forall k :: 0 <= k < |r.lines| ==> SingleSpaced(r.lines[k])
    decreases |toks|
  {
    if toks != [] {
      var n := LineCount(toks, m, width);
      WrapTokensCons(toks, m, width);
      WrapTokensSingleSpaced(toks[n..], m, width);
      JoinedSingleSpaced(toks[..n]);
      SingleSpacedCons(Join(toks[..n]), WrapTokens(toks[n..], m, width).lines);
    }
  }

  lemma JoinedSingleSpaced(ws: seq<string>)
    requires AllWords(ws) && ws != []
    ensures SingleSpaced(Join(ws))
  {
    SplitJoin(ws);
  }

  lemma SingleSpacedCons(line: string, rest: seq<string>)
    requires SingleSpaced(line) && forall k :: 0 <= k < |rest| ==> SingleSpaced(rest[k])
    ensures forall k :: 0 <= k < |[line] + rest| ==> SingleSpaced(([line] + rest)[k])
  {
    forall k | 0 <= k < |[line] + rest|
      ensures SingleSpaced(([line] + rest)[k])
    {
      if k > 0 {
        assert ([line] + rest)[k] == rest[k - 1];
      }
    }
  }

  /** A measure that charges one pixel per character and one pixel of height per line. */
  function CharCount(s: string): Extent {
    Extent(|s|, 1)
  }

  /**
   * The last line is taken whole once the growing prefix reaches the end of
   * the remaining words, without measuring it: with a budget of 3 pixels,
   * "ab cd" stays on one 5-pixel line although "ab" alone fits.
   */
  lemma LastLineMayOverflow()
    ensures Wrap("ab cd", CharCount, 3).lines == ["ab cd"]
    ensures !Fits(CharCount, 3, "ab cd") && |Split("ab cd")| == 2
  {
    var toks := ["ab", "cd"];
    assert IsWord("ab") && IsWord("cd");
    assert Join(toks) == "ab cd";
    SplitJoin(toks);
    assert toks[..1] == ["ab"] && Join(["ab"]) == "ab";
    assert FitCount(toks, CharCount, 3, 2) == 2;
    assert FitCount(toks, CharCount, 3, 1) == 2;
    assert toks[..2] == toks && toks[2..] == [];
  }

  /**
   * `_render_text` from the vertical cursor `ch`: each line is drawn at the
   * fixed `x`, and the cursor advances by that line's own measured height.
   */
  function RenderFrom(lines: seq<string>, m: Measure, x: int, ch: int): (r: seq<DrawnLine>)
    ensures |r| == |lines|
  {
    if lines == [] then []
    else [DrawnLine(Point(x, ch), lines[0])] + RenderFrom(lines[1..], m, x, ch + m(lines[0]).h)
  }

  /** Line `k` is drawn at the cursor advanced by the heights of the lines before it. */
  lemma {:induction false} RenderFromSpec(lines: seq<string>, m: Measure, x: int, ch: int)
    ensures var r := RenderFrom(lines, m, x, ch);
      forall k :: 0 <= k < |r| ==> r[k] == DrawnLine(Point(x, ch + TotalHeight(lines[..k], m)), lines[k])
  {
    if lines != [] {
      var r := RenderFrom(lines, m, x, ch);
      var rest := RenderFrom(lines[1..], m, x, ch + m(lines[0]).h);
      RenderFromSpec(lines[1..], m, x, ch + m(lines[0]).h);
      forall k | 0 <= k < |r|
        ensures r[k] == DrawnLine(Point(x, ch + TotalHeight(lines[..k], m)), lines[k])
      {
        if k > 0 {
          assert r[k] == rest[k - 1];
          assert lines[..k][1..] == lines[1..][..k - 1];
          assert lines[..k][0] == lines[0];
        }
      }
    }
  }

  /** `_render_text(st, font, draw, pos)`. */
  function RenderText(lines: seq<string>, m: Measure, pos: Point): (r: seq<DrawnLine>)
    ensures |r| == |lines|
  {
    RenderFrom(lines, m, pos.x, pos.y)
  }

  /**
   * Every line is drawn, in order, at the left edge `pos.x`, and line `k`
   * is lowered from `pos.y` by the heights of the lines above it.
   */
  lemma RenderTextSpec(lines: seq<string>, m: Measure, pos: Point)
    ensures var r := RenderText(lines, m, pos);
      && |r| == |lines|
      && (forall k :: 0 <= k < |r| ==> r[k].text == lines[k] && r[k].at.x == pos.x)
      && (forall k :: 0 <= k < |r| ==> r[k].at.y == pos.y + TotalHeight(lines[..k], m))
  {
    RenderFromSpec(lines, m, pos.x, pos.y);
  }

  /** A line and the lines above it together are no taller than the whole block. */
  lemma {:induction false} TotalHeightPrefix(lines: seq<string>, m: Measure, k: nat)
    requires k < |lines|
    ensures TotalHeight(lines[..k], m) + m(lines[k]).h <= TotalHeight(lines, m)
  {
    if k > 0 {
      TotalHeightPrefix(lines[1..], m, k - 1);
      assert lines[..k][1..] == lines[1..][..k - 1];
      assert lines[..k][0] == lines[0];
    }
  }

  /** Every line `_render_text` draws lies within the block's total height below `pos`. */
  lemma RenderTextWithin(lines: seq<string>, m: Measure, pos: Point)
    ensures var r := RenderText(lines, m, pos);
      forall k :: 0 <= k < |r| ==>
        pos.y <= r[k].at.y && r[k].at.y + m(r[k].text).h <= pos.y + TotalHeight(lines, m)
  {
    var r := RenderText(lines, m, pos);
    RenderTextSpec(lines, m, pos);
    forall k | 0 <= k < |r|
      ensures pos.y <= r[k].at.y && r[k].at.y + m(r[k].text).h <= pos.y + TotalHeight(lines, m)
    {
      TotalHeightPrefix(lines, m, k);
    }
  }

  /**
   * A text block drawn from `pos` fills exactly its box: every line starts
   * at `pos.x` and lies within the box, and the widest line reaches its
   * right edge.
   */
  lemma BlockGeometry(w: Wrapped, m: Measure, pos: Point)
    requires Boxed(w, m)
    ensures var r := RenderText(w.lines, m, pos);
      && |r| == |w.lines|
      && (forall k :: 0 <= k < |r| ==>
            && r[k].text == w.lines[k]
            && r[k].at.x == pos.x
            && r[k].at.x + m(r[k].text).w <= pos.x + w.width
            && pos.y <= r[k].at.y
            && r[k].at.y + m(r[k].text).h <= pos.y + w.height)
      && (r != [] ==> exists k :: 0 <= k < |r| && r[k].at.x + m(r[k].text).w == pos.x + w.width)
  {
    var r := RenderText(w.lines, m, pos);
    RenderTextSpec(w.lines, m, pos);
    RenderTextWithin(w.lines, m, pos);
    if r != [] {
      var k :| 0 <= k < |w.lines| && m(w.lines[k]).w == w.width;
      assert r[k].at.x + m(r[k].text).w == pos.x + w.width;
    }
  }
}

=== FILE: panels.dfy ===
/**
 * Grouping of the excerpt into comic panels (`ComicGenerator._gen_panel_text`).
 * Line numbers in the comments of this module refer to `ComicGenerator.py`.
 */
module Panels {
  import opened Chat

  /** One utterance in a panel: the `(sender, content)` pair. */
  datatype Entry = Entry(speaker: string, text: string)

  /** A panel: in a comic built from a non-empty excerpt, one or two entries. */
  type Panel = seq<Entry>

  function EntryOf(m: Message): Entry {
    Entry(m.sender, m.content)
  }

  /** The `(sender, content)` pairs of `msgs`, in order. */
  function Entries(msgs: seq<Message>): (r: seq<Entry>)
    ensures |r| == |msgs|
  {
    if msgs == [] then [] else [EntryOf(msgs[0])] + Entries(msgs[1..])
  }

  /** Entry `k` is the pair of message `k`. */
  lemma {:induction false} EntriesIndex(msgs: seq<Message>, k: nat)
    requires k < |msgs|
    ensures Entries(msgs)[k] == EntryOf(msgs[k])
  {
    if k > 0 {
      EntriesIndex(msgs[1..], k - 1);
    }
  }

  /** All entries of all panels, in order. */
  function Flatten(panels: seq<Panel>): seq<Entry> {
    if panels == [] then [] else panels[0] + Flatten(panels[1..])
  }

  lemma FlattenAppend(panels: seq<Panel>, p: Panel)
    ensures Flatten(panels + [p]) == Flatten(panels) + p
  {
    if panels != [] {
      assert (panels + [p])[1..] == panels[1..] + [p];
    }
  }

  /** Every flattened entry sits at some position of some panel. */
  lemma {:induction false} FlattenMember(panels: seq<Panel>, e: Entry)
    requires e in Flatten(panels)
    ensures exists k, t :: 0 <= k < |panels| && 0 <= t < |panels[k]| && panels[k][t] == e
  {
    if e in panels[0] {
      var t :| 0 <= t < |panels[0]| && panels[0][t] == e;
    } else {
      FlattenMember(panels[1..], e);
      var k, t :| 0 <= k < |panels[1..]| && 0 <= t < |panels[1..][k]| && panels[1..][k][t] == e;
      assert panels[k + 1] == panels[1..][k];
    }
  }

  /** One or two entries, and two entries never share a speaker. */
  predicate WellFormed(p: Panel) {
    && 1 <= |p| <= 2
    && (|p| == 2 ==> p[0].speaker != p[1].speaker)
  }

  /** The test on line 23: the running panel is closed before `m` is added. */
  predicate Closes(panel: Panel, m: Message) {
    |panel| >= 2 || (|panel| == 1 && panel[0].speaker == m.sender)
  }

  /** `p` was closed only because it was full or `q` opens with the same speaker. */
  predicate ClosedFor(p: Panel, q: Panel) {
    |p| == 2 || (|p| == 1 && |q| > 0 && p[0].speaker == q[0].speaker)
  }

  /** Every panel in order, and each panel was closed only when it had to be. */
  predicate Greedy(panels: seq<Panel>) {
    forall k :: 0 <= k < |panels| - 1 ==> ClosedFor(panels[k], panels[k + 1])
  }

  /** The loop state: closed panels and the running one. */
  predicate LoopState(panels: seq<Panel>, panel: Panel) {
    && (forall k :: 0 <= k < |panels| ==> WellFormed(panels[k]))
    && |panel| <= 2 && (|panel| == 2 ==> panel[0].speaker != panel[1].speaker)
    && (panels != [] ==> panel != [])
    && Greedy(panels)
    && (panels != [] && panel != [] ==> ClosedFor(panels[|panels| - 1], panel))
  }

  /** The `for msg in msgs` loop of `_gen_panel_text` over the remaining messages. */
  function GroupFrom(msgs: seq<Message>, panels: seq<Panel>, panel: Panel): (r: seq<Panel>)
    requires LoopState(panels, panel)
    ensures Flatten(r) == Flatten(panels) + panel + Entries(msgs)
    ensures panel != [] || msgs != [] ==> forall k :: 0 <= k < |r| ==> WellFormed(r[k])
    ensures Greedy(r)
    ensures |panels| < |r|
    decreases |msgs|
  {
    if msgs == [] then
      FinalStep(panels, panel);
      panels + [panel]
    else
      var e := EntryOf(msgs[0]);
      assert Entries(msgs) == [e] + Entries(msgs[1..]);
      Regroup(Flatten(panels), panel, e, Entries(msgs[1..]));
      if Closes(panel, msgs[0]) then
        CloseStep(panels, panel, msgs[0]);
        GroupFrom(msgs[1..], panels + [panel], [e])
      else
        ExtendStep(panels, panel, msgs[0]);
        GroupFrom(msgs[1..], panels, panel + [e])
  }

  lemma Regroup(a: seq<Entry>, p: seq<Entry>, e: Entry, rest: seq<Entry>)
    ensures a + p + [e] + rest == a + p + ([e] + rest)
    ensures a + (p + [e]) + rest == a + p + ([e] + rest)
  {
  }

  lemma FinalStep(panels: seq<Panel>, panel: Panel)
    requires LoopState(panels, panel)
    ensures Flatten(panels + [panel]) == Flatten(panels) + panel
    ensures panel != [] ==> forall k :: 0 <= k < |panels| + 1 ==> WellFormed((panels + [panel])[k])
    ensures Greedy(panels + [panel])
  {
    FlattenAppend(panels, panel);
    var r := panels + [panel];
    forall k | 0 <= k < |r| - 1
      ensures ClosedFor(r[k], r[k + 1])
    {
      if k < |panels| - 1 {
        assert r[k] == panels[k] && r[k + 1] == panels[k + 1];
      }
    }
  }

  lemma CloseStep(panels: seq<Panel>, panel: Panel, m: Message)
    requires LoopState(panels, panel) && Closes(panel, m)
    ensures LoopState(panels + [panel], [EntryOf(m)])
    ensures Flatten(panels + [panel]) + [EntryOf(m)] == Flatten(panels) + panel + [EntryOf(m)]
  {
    FinalStep(panels, panel);
  }

  lemma ExtendStep(panels: seq<Panel>, panel: Panel, m: Message)
    requires LoopState(panels, panel) && !Closes(panel, m)
    ensures LoopState(panels, panel + [EntryOf(m)])
  {
    var p := panel + [EntryOf(m)];
    if panels != [] {
      assert p[0] == panel[0];
    }
  }

  /** `_gen_panel_text(msgs)`. */
  function GenPanelText(msgs: seq<Message>): (r: seq<Panel>)
    ensures Flatten(r) == Entries(msgs)
    ensures msgs != [] ==> forall k :: 0 <= k < |r| ==> WellFormed(r[k])
    ensures msgs == [] ==> r == [[]]
    ensures Greedy(r)
    ensures |r| >= 1
  {
    GroupFrom(msgs, [], [])
  }

  /**
   * Speakers A, B, A: B joins A's panel, which is then full, so the second
   * A opens a new one.
   */
  lemma AlternatingSpeakers(a: Message, b: Message, c: Message)
    requires a.sender == c.sender && a.sender != b.sender
    ensures GenPanelText([a, b, c]) == [[EntryOf(a), EntryOf(b)], [EntryOf(c)]]
  {
    var ms := [a, b, c];
    var ea, eb, ec := EntryOf(a), EntryOf(b), EntryOf(c);
    assert ms[1..] == [b, c] && [b, c][1..] == [c] && [c][1..] == [];
    assert [] + [ea] == [ea] && [ea] + [eb] == [ea, eb] && [] + [[ea, eb]] == [[ea, eb]];
    assert !Closes([], a) && !Closes([ea], b) && Closes([ea, eb], c);
    calc {
      GenPanelText(ms);
      GroupFrom([b, c], [], [ea]);
      GroupFrom([c], [], [ea, eb]);
      GroupFrom([], [[ea, eb]], [ec]);
      [[ea, eb], [ec]];
    }
  }

  /** Consecutive messages of one speaker each get a panel of their own. */
  lemma SameSpeaker(a: Message, b: Message)
    requires a.sender == b.sender
    ensures GenPanelText([a, b]) == [[EntryOf(a)], [EntryOf(b)]]
  {
    var ms := [a, b];
    var ea, eb := EntryOf(a), EntryOf(b);
    assert ms[1..] == [b] && [b][1..] == [];
    assert [] + [ea] == [ea] && [] + [[ea]] == [[ea]];
    assert !Closes([], a) && Closes([ea], b);
    calc {
      GenPanelText(ms);
      GroupFrom([b], [], [ea]);
      GroupFrom([], [[ea]], [eb]);
      [[ea], [eb]];
    }
  }
}

=== FILE: selection.dfy ===
/**
 * The conversation window of `ComicGenerator.make_comic`: a backward scan
 * from the newest message that keeps the message on which it stops.
 */
module Selection {
  import opened Chat

  /** A time gap above this many seconds ends the excerpt. */
  const MaxGap: int := 120
  /** More distinct senders than this ends the excerpt. */
  const MaxSpeakers: nat := 3
  /** More messages than this ends the excerpt. */
  const MaxTrimmed: nat := 10

  /** The scan's result: `trimmed` after `reverse()`, the `characters` set, and the index the loop stopped at. */
  datatype Excerpt = Excerpt(messages: seq<Message>, characters: set<string>, start: nat)

  /** `msgs[i - 1]` as Python evaluates it: at `i == 0` it is the last message. */
  function Previous(msgs: seq<Message>, i: nat): Message
    requires i < |msgs|
  {
    if i == 0 then msgs[|msgs| - 1] else msgs[i - 1]
  }

  /**
   * The scan stops at index `i` once `msgs[i..]` is accumulated: the gap to
   * the message before is too long, there are too many senders, or too many
   * messages.
   */
  predicate StopsAt(msgs: seq<Message>, i: nat)
    requires i < |msgs|
  {
    || msgs[i].time - Previous(msgs, i).time > MaxGap
    || |Senders(msgs[i..])| > MaxSpeakers
    || |msgs| - i > MaxTrimmed
  }

  /** `trimmed.reverse()`. */
  function Reverse<T>(s: seq<T>): (r: seq<T>)
    ensures |r| == |s|
  {
    if s == [] then [] else Reverse(s[1..]) + [s[0]]
  }

  /** Element `k` of the reversal is element `|s| - 1 - k` of the original. */
  lemma {:induction false} ReverseIndex<T>(s: seq<T>, k: nat)
    requires k < |s|
    ensures Reverse(s)[k] == s[|s| - 1 - k]
  {
    if k < |s| - 1 {
      ReverseIndex(s[1..], k);
    }
  }

  /** `trimmed` holds `msgs[i + 1..]` newest first, and `characters` their senders. */
  predicate Scanned(msgs: seq<Message>, i: int, trimmed: seq<Message>, characters: set<string>)
    requires -1 <= i < |msgs|
  {
    && |trimmed| == |msgs| - 1 - i
    && (forall k :: 0 <= k < |trimmed| ==> trimmed[k] == msgs[|msgs| - 1 - k])
    && characters == Senders(trimmed)
  }

  lemma ScannedStep(msgs: seq<Message>, i: nat, trimmed: seq<Message>, characters: set<string>)
    requires i < |msgs| && Scanned(msgs, i, trimmed, characters)
    ensures Scanned(msgs, i - 1, trimmed + [msgs[i]], characters + {msgs[i].sender})
  {
    SendersSnoc(trimmed, msgs[i]);
  }

  /** Reversing what the scan accumulated gives the suffix it covered. */
  lemma ReversedSuffix(msgs: seq<Message>, i: int, trimmed: seq<Message>, characters: set<string>)
    requires -1 <= i < |msgs| && Scanned(msgs, i, trimmed, characters)
    ensures Reverse(trimmed) == msgs[i + 1..]
  {
    forall j | 0 <= j < |trimmed|
      ensures Reverse(trimmed)[j] == msgs[i + 1..][j]
    {
      ReverseIndex(trimmed, j);
    }
  }

  /** The accumulated `characters` are the senders of the suffix covered so far. */
  lemma ScannedSenders(msgs: seq<Message>, i: int, trimmed: seq<Message>, characters: set<string>)
    requires -1 <= i < |msgs| && Scanned(msgs, i, trimmed, characters)
    ensures characters == Senders(msgs[i + 1..])
  {
    var suffix := msgs[i + 1..];
    forall s | s in Senders(trimmed)
      ensures s in Senders(suffix)
    {
      var k :| 0 <= k < |trimmed| && trimmed[k].sender == s;
      assert suffix[|msgs| - 1 - k - (i + 1)] == trimmed[k];
    }
    forall s | s in Senders(suffix)
      ensures s in Senders(trimmed)
    {
      var j :| 0 <= j < |suffix| && suffix[j].sender == s;
      assert trimmed[|msgs| - 1 - (i + 1 + j)] == suffix[j];
    }
  }

  /** The three tests of the loop body, on the accumulated state, are `StopsAt`. */
  lemma StopTest(msgs: seq<Message>, i: nat, t: seq<Message>, c: set<string>)
    requires i < |msgs| && Scanned(msgs, i - 1, t, c)
    ensures StopsAt(msgs, i) <==>
      (msgs[i].time - Previous(msgs, i).time > MaxGap || |c| > MaxSpeakers || |t| > MaxTrimmed)
  {
    ScannedSenders(msgs, i - 1, t, c);
  }

  /** The loop `for i in range(len(msgs) - 1, -1, -1)` from index `i` on. */
  function ScanFrom(msgs: seq<Message>, i: int, trimmed: seq<Message>, characters: set<string>): (r: Excerpt)
    requires -1 <= i < |msgs|
    ensures r.start <= i + 1 && (i >= 0 ==> r.start <= i)
    decreases i + 1
  {
    if i < 0 then Excerpt(trimmed, characters, 0)
    else
      var t := trimmed + [msgs[i]];
      var c := characters + {msgs[i].sender};
      // the three tests print different messages but all `break`
      if || msgs[i].time - Previous(msgs, i).time > MaxGap
         || |c| > MaxSpeakers
         || |t| > MaxTrimmed
      then Excerpt(t, c, i)
      else ScanFrom(msgs, i - 1, t, c)
  }

  /** The scan keeps its accumulators equal to the reversed suffix and its senders. */
  lemma {:induction false} ScanFromScanned(msgs: seq<Message>, i: int, trimmed: seq<Message>, characters: set<string>)
    requires -1 <= i < |msgs|
    requires Scanned(msgs, i, trimmed, characters)
    ensures var r := ScanFrom(msgs, i, trimmed, characters);
      Scanned(msgs, r.start as int - 1, r.messages, r.characters)
    decreases i + 1
  {
    if i >= 0 {
      var t := trimmed + [msgs[i]];
      var c := characters + {msgs[i].sender};
      ScannedStep(msgs, i, trimmed, characters);
      var r := ScanFrom(msgs, i, trimmed, characters);
      if msgs[i].time - Previous(msgs, i).time > MaxGap || |c| > MaxSpeakers || |t| > MaxTrimmed {
        assert r == Excerpt(t, c, i);
      } else {
        assert r == ScanFrom(msgs, i - 1, t, c);
        ScanFromScanned(msgs, i - 1, t, c);
      }
    }
  }

  /** The scan passes every index above the one it stops at. */
  lemma {:induction false} ScanFromPasses(msgs: seq<Message>, i: int, trimmed: seq<Message>, characters: set<string>)
    requires -1 <= i < |msgs|
    requires Scanned(msgs, i, trimmed, characters)
    ensures var r := ScanFrom(msgs, i, trimmed, characters);
      forall j :: r.start < j <= i ==> !StopsAt(msgs, j)
    decreases i + 1
  {
    if i >= 0 {
      var t := trimmed + [msgs[i]];
      var c := characters + {msgs[i].sender};
      ScannedStep(msgs, i, trimmed, characters);
      if msgs[i].time - Previous(msgs, i).time > MaxGap || |c| > MaxSpeakers || |t| > MaxTrimmed {
        assert ScanFrom(msgs, i, trimmed, characters).start == i;
      } else {
        var r := ScanFrom(msgs, i - 1, t, c);
        assert ScanFrom(msgs, i, trimmed, characters) == r;
        StopTest(msgs, i, t, c);
        ScanFromPasses(msgs, i - 1, t, c);
      }
    }
  }

  /** Where the scan stops before reaching index 0, `StopsAt` holds. */
  lemma {:induction false} ScanFromStopsAt(msgs: seq<Message>, i: int, trimmed: seq<Message>, characters: set<string>)
    requires -1 <= i < |msgs|
    requires Scanned(msgs, i, trimmed, characters)
    ensures var r := ScanFrom(msgs, i, trimmed, characters);
      r.start > 0 ==> StopsAt(msgs, r.start)
    decreases i + 1
  {
    if i >= 0 {
      var t := trimmed + [msgs[i]];
      var c := characters + {msgs[i].sender};
      assert Scanned(msgs, i - 1, t, c) by {
        ScannedStep(msgs, i, trimmed, characters);
      }
      if StopsAt(msgs, i) {
        assert ScanFrom(msgs, i, trimmed, characters).start == i by {
          StopTest(msgs, i, t, c);
        }
      } else {
        assert ScanFrom(msgs, i, trimmed, characters) == ScanFrom(msgs, i - 1, t, c) by {
          StopTest(msgs, i, t, c);
        }
        ScanFromStopsAt(msgs, i - 1, t, c);
      }
    }
  }

  /**
   * The excerpt `make_comic` draws: a contiguous suffix of `msgs` in
   * chronological order, with the senders of its messages.
   */
  function SelectExcerpt(msgs: seq<Message>): (r: Excerpt)
    ensures r.start <= |msgs| && r.messages == msgs[r.start..]
    ensures r.characters == Senders(r.messages)
    ensures msgs != [] ==> r.start < |msgs|
  {
    var s := ScanFrom(msgs, |msgs| - 1, [], {});
    ScanFromScanned(msgs, |msgs| - 1, [], {});
    ReversedSuffix(msgs, s.start as int - 1, s.messages, s.characters);
    ScannedSenders(msgs, s.start as int - 1, s.messages, s.characters);
    Excerpt(Reverse(s.messages), s.characters, s.start)
  }

  /**
   * The excerpt reaches back exactly to the latest index (other than 0) at
   * which the scan stops, or to the start of the list.
   */
  lemma SelectExcerptStops(msgs: seq<Message>)
    ensures var e := SelectExcerpt(msgs);
      && (forall j :: e.start < j < |msgs| ==> !StopsAt(msgs, j))
      && (e.start > 0 ==> StopsAt(msgs, e.start))
  {
    ScanFromPasses(msgs, |msgs| - 1, [], {});
    ScanFromStopsAt(msgs, |msgs| - 1, [], {});
  }

  /** The newest message is always kept, and only an empty list gives an empty excerpt. */
  lemma ExcerptKeepsNewest(msgs: seq<Message>)
    ensures var e := SelectExcerpt(msgs);
      && (msgs == [] <==> e.messages == [])
      && (msgs != [] ==> e.messages[|e.messages| - 1] == msgs[|msgs| - 1])
  {
  }

  /** The triggering message is kept, so an excerpt holds at most 11 messages. */
  lemma {:induction false} ExcerptLength(msgs: seq<Message>)
    ensures |SelectExcerpt(msgs).messages| <= MaxTrimmed + 1
  {
    SelectExcerptStops(msgs);
    var e := SelectExcerpt(msgs);
    if e.start + 1 < |msgs| {
      assert !StopsAt(msgs, e.start + 1);
    }
  }

  /** The triggering sender is kept, so an excerpt has at most 4 senders. */
  lemma {:induction false} ExcerptSpeakers(msgs: seq<Message>)
    ensures |SelectExcerpt(msgs).characters| <= MaxSpeakers + 1
  {
    SelectExcerptStops(msgs);
    var e := SelectExcerpt(msgs);
    var s := e.start;
    if s + 1 < |msgs| {
      assert !StopsAt(msgs, s + 1);
      assert msgs[s..][1..] == msgs[s + 1..];
      SendersCons(msgs[s..]);
    }
  }

  /** How much newer message `k` is than the message before it. */
  function Gap(ms: seq<Message>, k: nat): int
    requires 0 < k < |ms|
  {
    ms[k].time - ms[k - 1].time
  }

  /** Neighbouring messages of an excerpt are at most 120 seconds apart (the newer minus the older). */
  lemma {:induction false} ExcerptGaps(msgs: seq<Message>)
    ensures var e := SelectExcerpt(msgs);
      forall k :: 0 < k < |e.messages| ==> Gap(e.messages, k) <= MaxGap
  {
    SelectExcerptStops(msgs);
    var e := SelectExcerpt(msgs);
    var s := e.start;
    forall k | 0 < k < |e.messages|
      ensures Gap(e.messages, k) <= MaxGap
    {
      assert !StopsAt(msgs, s + k);
      assert e.messages[k] == msgs[s + k] && e.messages[k - 1] == msgs[s + k - 1];
    }
  }
}

=== FILE: sprites.dfy ===
/**
 * Character art: which sprite each speaker gets (`char_map`, line 105 of
 * `ComicGenerator.py`) and how a sprite is scaled into its box
 * (`ComicGenerator._fit_img`), over exact reals. Line numbers in the
 * comments of this module refer to `ComicGenerator.py`.
 */
module Sprites {
  import opened Wrappers

  /** A pixel size `(width, height)`, as `img.size` reports it. */
  datatype Size = Size(w: nat, h: nat)

  /** A scaled size before truncation to whole pixels. */
  datatype Scaled = Scaled(w: real, h: real)

  /** The exception `_fit_img` can raise on its own. */
  datatype FitError = ZeroDivision

  predicate Distinct<T(==)>(s: seq<T>) {
    forall i, j :: 0 <= i < j < |s| ==> s[i] != s[j]
  }

  /** `order` lists the elements of `items` once each: one iteration order of a Python set. */
  predicate Enumerates<T(==)>(order: seq<T>, items: set<T>) {
    Distinct(order) && (set x | x in order) == items
  }

  function Min(a: int, b: int): int {
    if a <= b then a else b
  }

  /**
   * `{ch: path for (ch, path) in zip(characters, char_paths)}` with the set
   * iterated in the order `order`: `zip` stops at the shorter input.
   */
  function CharMap(order: seq<string>, paths: seq<string>): (r: map<string, string>)
    requires Distinct(order)
    ensures forall k :: 0 <= k < Min(|order|, |paths|) ==> order[k] in r && r[order[k]] == paths[k]
    ensures forall s :: s in r ==> exists k :: 0 <= k < Min(|order|, |paths|) && order[k] == s
  {
    map k | 0 <= k < Min(|order|, |paths|) :: order[k] := paths[k]
  }

  /** `zip` pairs the first `Min(|order|, |paths|)` speakers, each with a sprite from the list. */
  lemma {:induction false} CharMapSize(order: seq<string>, paths: seq<string>)
    requires Distinct(order)
    ensures var r := CharMap(order, paths);
      && |r| == Min(|order|, |paths|)
      && (forall s :: s in r ==> r[s] in paths)
  {
    var r := CharMap(order, paths);
    var n := Min(|order|, |paths|);
    var prefix := order[..n];
    assert r.Keys == set x | x in prefix;
    EnumerationSize(prefix, r.Keys);
    assert |r| == |r.Keys|;
  }

  /** No two speakers share a sprite when the sprite list has no repeats. */
  lemma {:induction false} CharMapInjective(order: seq<string>, paths: seq<string>)
    requires Distinct(order) && Distinct(paths)
    ensures var r := CharMap(order, paths);
      forall s, t :: s in r && t in r && s != t ==> r[s] != r[t]
  {
    var r := CharMap(order, paths);
    var n := Min(|order|, |paths|);
    forall s, t | s in r && t in r && s != t
      ensures r[s] != r[t]
    {
      var i :| 0 <= i < n && order[i] == s;
      var j :| 0 <= j < n && order[j] == t;
      assert r[s] == paths[i] && r[t] == paths[j];
      DistinctAt(paths, i, j);
    }
  }

  lemma DistinctAt<T>(s: seq<T>, i: int, j: int)
    requires Distinct(s) && 0 <= i < |s| && 0 <= j < |s| && i != j
    ensures s[i] != s[j]
  {
    if j < i {
      assert s[j] != s[i];
    }
  }

  lemma {:induction false} EnumerationSize<T>(order: seq<T>, items: set<T>)
    requires Enumerates(order, items)
    ensures |order| == |items|
    decreases |order|
  {
    if order != [] {
      var rest := set x | x in order[1..];
      assert Enumerates(order[1..], rest);
      EnumerationSize(order[1..], rest);
      assert items == {order[0]} + rest;
      assert forall k :: 0 <= k < |order| - 1 ==> order[1..][k] != order[0];
      assert order[0] !in rest;
    }
  }

  /**
   * Every speaker gets a sprite exactly when there are at least as many
   * sprites as speakers; otherwise some speaker has none and the lookup on
   * line 134 or 141 raises `KeyError`.
   */
  lemma {:induction false} CharMapCovers(order: seq<string>, items: set<string>, paths: seq<string>)
    requires Enumerates(order, items)
    ensures (forall s :: s in items ==> s in CharMap(order, paths)) <==> |items| <= |paths|
  {
    EnumerationSize(order, items);
    var r := CharMap(order, paths);
    if |items| <= |paths| {
      forall s | s in items
        ensures s in r
      {
        var k :| 0 <= k < |order| && order[k] == s;
      }
    } else {
      var s := order[|paths|];
      assert s in items;
      assert forall k :: 0 <= k < |paths| ==> order[k] != s;
      assert s !in r;
    }
  }

  /**
   * With enough sprites the map pairs exactly the enumerated speakers with
   * files from the list, and no two of them share a file when the list has
   * no repeats.
   */
  lemma CharMapOnto(order: seq<string>, items: set<string>, paths: seq<string>)
    requires Enumerates(order, items) && |items| <= |paths|
    ensures var r := CharMap(order, paths);
      && r.Keys == items
      && (forall s :: s in r ==> r[s] in paths)
      && (Distinct(paths) ==> forall s, t :: s in r && t in r && s != t ==> r[s] != r[t])
  {
    CharMapCovers(order, items, paths);
    CharMapSize(order, paths);
    if Distinct(paths) {
      CharMapInjective(order, paths);
    }
  }

  /** Python's `int(x)`: truncation toward zero. */
  function Trunc(x: real): (r: int)
    ensures x >= 0.0 ==> 0 <= r && r as real <= x < r as real + 1.0
  {
    if x >= 0.0 then x.Floor else -((-x).Floor)
  }

  /**
   * The scaled size `l` of `_fit_img` before truncation: scale to the width
   * bound, and fall back to the height bound if that scaled size is too large.
   */
  function FitScaled(img: Size, width: real, height: real): Scaled
    requires img.w > 0 && img.h > 0
  {
    var scale1 := width / img.w as real;
    var scale2 := height / img.h as real;
    var l1 := Scaled(img.w as real * scale1, img.h as real * scale1);
    var l2 := Scaled(img.w as real * scale2, img.h as real * scale2);
    if l1.w > width || l1.h > height then l2 else l1
  }

  /** `_fit_img(img, width, height)`, returning the size passed to `resize`. */
  function FitImg(img: Size, width: real, height: real): (r: Result<Size, FitError>)
    requires width > 0.0 && height >= 0.0
    ensures r.Err? <==> img.w == 0 || img.h == 0
    ensures r.Ok? ==> 0 <= r.value.w && r.value.w as real <= width
    ensures r.Ok? ==> 0 <= r.value.h && r.value.h as real <= height
  {
    if img.w == 0 || img.h == 0 then Err(ZeroDivision)
    else
      var l := FitScaled(img, width, height);
      FitWithinBounds(img, width, height);
      Ok(Size(Trunc(l.w), Trunc(l.h)))
  }

  /** The box before truncation lies within both bounds. */
  lemma FitWithinBounds(img: Size, width: real, height: real)
    requires img.w > 0 && img.h > 0 && width > 0.0 && height >= 0.0
    ensures var l := FitScaled(img, width, height);
      0.0 <= l.w <= width && 0.0 <= l.h <= height
  {
    var w, h := img.w as real, img.h as real;
    var scale1 := width / w;
    var scale2 := height / h;
    assert w * scale1 == width;
    assert h * scale2 == height;
    if h * scale1 > height {
      MulMonotone(h, scale2, scale1);
      MulMonotone(w, scale2, scale1);
    }
  }

  /** Multiplying by a positive factor keeps the order. */
  lemma MulMonotone(a: real, x: real, y: real)
    requires a > 0.0
    ensures x <= y <==> a * x <= a * y
  {
  }

  /**
   * The chosen size keeps the sprite's aspect ratio; the width-fitted size
   * is chosen whenever its height fits, and otherwise the chosen one has
   * exactly the height bound.
   */
  lemma FitKeepsAspect(img: Size, width: real, height: real)
    requires img.w > 0 && img.h > 0 && width > 0.0 && height >= 0.0
    ensures var l := FitScaled(img, width, height);
      var fitH := img.h as real * (width / img.w as real);
      && l.w * img.h as real == l.h * img.w as real
      && (fitH <= height ==> l == Scaled(width, fitH))
      && (fitH > height ==> l.h == height)
  {
    var w, h := img.w as real, img.h as real;
    var scale1 := width / w;
    var scale2 := height / h;
    assert w * scale1 == width;
    assert h * scale2 == height;
  }

  /** No larger uniform scaling of the sprite stays within both bounds. */
  lemma FitIsLargest(img: Size, width: real, height: real, t: real)
    requires img.w > 0 && img.h > 0 && width > 0.0 && height >= 0.0
    requires t >= 0.0 && img.w as real * t <= width && img.h as real * t <= height
    ensures var l := FitScaled(img, width, height);
      img.w as real * t <= l.w && img.h as real * t <= l.h
  {
    var w, h := img.w as real, img.h as real;
    var scale1 := width / w;
    var scale2 := height / h;
    assert w * scale1 == width;
    assert h * scale2 == height;
    MulMonotone(w, t, scale1);
    MulMonotone(h, t, scale2);
    MulMonotone(w, t, scale2);
    MulMonotone(h, t, scale1);
  }
}

=== FILE: text.dfy ===
/**
 * Whitespace tokenisation as Python's `str.split()` (no argument) performs it,
 * and the single-space `" ".join(...)` the word wrapper uses to rebuild lines.
 */
module Text {

  /** The characters `str.isspace()` accepts, i.e. the separators of `str.split()`. */
  predicate IsSpace(c: char) {
    || c == ' ' || c == '\t' || c == '\n' || c == '\r'
    || c == '\U{000B}' || c == '\U{000C}'
    || ('\U{001C}' <= c <= '\U{001F}')
    || c == '\U{0085}' || c == '\U{00A0}' || c == '\U{1680}'
    || ('\U{2000}' <= c <= '\U{200A}')
    || c == '\U{2028}' || c == '\U{2029}' || c == '\U{202F}' || c == '\U{205F}' || c == '\U{3000}'
  }

  /** A token `str.split()` can produce: non-empty and free of whitespace. */
  predicate IsWord(w: string) {
    |w| > 0 && forall i :: 0 <= i < |w| ==> !IsSpace(w[i])
  }

  predicate AllWords(ws: seq<string>) {
    forall k :: 0 <= k < |ws| ==> IsWord(ws[k])
  }

  /** Length of the run of non-space characters that starts `s`. */
  function WordLen(s: string): (n: nat)
    ensures n <= |s|
    ensures forall i :: 0 <= i < n ==> !IsSpace(s[i])
    ensures n == |s| || IsSpace(s[n])
  {
    if s == [] || IsSpace(s[0]) then 0 else 1 + WordLen(s[1..])
  }

  /** `s.split()`: the maximal runs of non-space characters, in order. */
  function Split(s: string): (ws: seq<string>)
    ensures AllWords(ws)
    decreases |s|
  {
    if s == [] then []
    else if IsSpace(s[0]) then Split(s[1..])
    else
      var n := WordLen(s);
      [s[..n]] + Split(s[n..])
  }

  /** `" ".join(ws)`. */
  function Join(ws: seq<string>): string {
    if |ws| == 0 then ""
    else if |ws| == 1 then ws[0]
    else ws[0] + " " + Join(ws[1..])
  }

  /** A word followed by a separator (or by nothing) is read back as exactly that word. */
  lemma {:induction false} WordLenOfWord(w: string, rest: string)
    requires IsWord(w)
    requires rest == [] || IsSpace(rest[0])
    ensures WordLen(w + rest) == |w|
    decreases |w|
  {
    var s := w + rest;
    assert s[0] == w[0];
    if |w| == 1 {
      assert s[1..] == rest;
      if rest != [] {
        assert WordLen(rest) == 0;
      }
    } else {
      assert s[1..] == w[1..] + rest;
      WordLenOfWord(w[1..], rest);
    }
  }

  /** Splitting a single-space join of words gives the words back. */
  lemma {:induction false} SplitJoin(ws: seq<string>)
    requires AllWords(ws)
    ensures Split(Join(ws)) == ws
    decreases |ws|
  {
    if |ws| == 0 {
    } else if |ws| == 1 {
      var w := ws[0];
      WordLenOfWord(w, []);
      assert w + [] == w;
      assert w[0] == w[0];
      assert w[..|w|] == w && w[|w|..] == [];
    } else {
      var w := ws[0];
      var tail := " " + Join(ws[1..]);
      var s := Join(ws);
      assert s == w + tail;
      WordLenOfWord(w, tail);
      assert s[0] == w[0];
      assert s[..|w|] == w;
      assert s[|w|..] == tail;
      assert tail[0] == ' ';
      assert tail[1..] == Join(ws[1..]);
      SplitJoin(ws[1..]);
      assert ws == [w] + ws[1..];
    }
  }

  /** Joining at least one word gives a non-empty string. */
  lemma JoinNonEmpty(ws: seq<string>)
    requires AllWords(ws) && |ws| > 0
    ensures |Join(ws)| > 0
  {
  }
}

=== FILE: wrappers.dfy ===
/** Failure-carrying result types shared by the comic generator and the bot. */
module Wrappers {

  /** A value that may be absent: a missing dictionary key, a query that found no row. */
  datatype Option<+T> = None | Some(value: T) {

    /** The contained value, or `default` when absent. */
    function GetOr(default: T): T {
      match this
      case Some(v) => v
      case None => default
    }
  }

  /** The outcome of an operation that either returns a value or raises an exception. */
  datatype Result<+R, +E> = Ok(value: R) | Err(error: E) {

    predicate IsFailure() {
      Err?
    }

    function PropagateFailure<U>(): Result<U, E>
      requires Err?
    {
      Err(error)
    }

    function Extract(): R
      requires Ok?
    {
      value
    }
  }
}
